=== FILE: README.md ===
# macro_util, modelled in Dafny

This project models `macro_util`, the procedural-macro crate behind the
`#[application_command]` attribute of the serenity Discord bot. The macro
does three things:

1. It reads an `async fn` command declaration into a `CommandFun`. Along the
   way it renames `doc` attributes to `description`, splits off the
   compiler's own ("cooked") attributes, and turns every parameter into an
   `Argument`.
2. It chooses the command name.
3. It folds every remaining attribute, in source order, into an `Options`
   descriptor. `description` lines are folded by the line-continuation rule
   of `append_line`; the other known names overwrite their field; an
   unknown name is a diagnostic.

The first diagnostic of any step ends the macro.

Modules follow the crate's files:

- `Diagnostics` holds spans, errors, the `Result`/`Option` types and `Traverse`, which models `collect::<Result<Vec<_>>>`.
- `Syntax` holds the shapes the parser library hands over: paths, literals, metas, patterns and parameters.
- `Text` and `Seqs` are string and sequence helpers.
- `Util` models `util.rs`.
- `Attributes` models `attributes.rs`.
- `Structures` models `structures.rs`.
- `Macro` models `lib.rs`.

Rust panics (`to_str` on a non-text literal, `to_bool` on other text) become preconditions. Diagnostics are `Error(span, message)`, with the source's messages copied verbatim, misspellings included.

`OnlyIn::from_str` has match arms for `"global"` and `"guild("` (macro_util/src/structures.rs:251-252), so `global` is evidently meant to be accepted. As written, the code refuses every restriction text. The model follows the code and records the discrepancy under Findings.

## Model

| member | source | states |
|---|---|---|
| Syntax.ParseMeta | macro_util/src/attributes.rs:14 | reading an attribute's meta fails exactly on malformed input, and the meta keeps the attribute's path |
| Util.RenameAttributes | macro_util/src/util.rs:13-19 | an attribute whose path is exactly `name` gets the one-segment path `target` with its input and location kept; every other attribute is unchanged; order and count are kept |
| Util.RenameRemovesName | macro_util/src/util.rs:13-19 | after renaming to a different target, no attribute is named `name` |
| Util.LitToStr | macro_util/src/util.rs:63-71 | string and byte-string literals give their text; a char or a byte gives a one-character text (a byte read as the character with that code) |
| Util.LitToBool | macro_util/src/util.rs:73-81 | a bool literal gives its value; a text literal gives true exactly when it reads `true` and false exactly when it reads `false` |
| Util.LitToIdent | macro_util/src/util.rs:84-86 | the identifier is spelled like the literal's text and sits at the literal |
| Util.TrimRawPrefix | macro_util/src/util.rs:98-101 | the result no longer starts with `r#`, and the input is some number of `r#` prefixes followed by the result |
| Util.TrimRawPrefixStable | macro_util/src/util.rs:98-101 | stripping is idempotent, and one more `r#` in front changes nothing |
| Util.ToStringNonRaw | macro_util/src/util.rs:97-101 | the identifier's text with every leading `r#` removed, and no `r#` left at its head |
| Util.ToUppercase | macro_util/src/util.rs:103-107 | a call-site identifier of the same length whose every character is the upper-case of the non-raw name's character |
| Util.WithSuffix | macro_util/src/util.rs:109-112 | the upper-cased name, `_`, then exactly the suffix |
| Util.MapOption | macro_util/src/util.rs:119-124 | mapping keeps absence and applies the function to a present value |
| Util.MapOptionLaws | macro_util/src/util.rs:119-124 | mapping the identity changes nothing, and mapping twice is mapping the composition once |
| Util.LastMarkerSpec | macro_util/src/util.rs:166 | the position found holds the continuation marker and no later position does; none is found only when the line has no marker |
| Util.StripLeadingSpace | macro_util/src/util.rs:160-162 | the line loses one leading space exactly when it starts with one |
| Util.ContributionSpec | macro_util/src/util.rs:159-176 | a line with no marker adds itself and one line break; a line whose last marker is at i adds the right-trimmed text before i and one space |
| Util.AppendLine | macro_util/src/util.rs:159-176 | the description afterwards exists, keeps the old description as a prefix and extends it by the line's contribution |
| Util.AppendLinesConcat | macro_util/src/util.rs:159-176 | folding several lines appends their contributions in order to the old description |
| Util.ContinuationExample | macro_util/src/util.rs:166-174 | a line ending in the marker followed by a plain line fold into one paragraph line |
| Text.TrimEndSpec | macro_util/src/util.rs:168 | the result is a prefix that does not end in white space, and everything removed is white space |
| Attributes.ToIdent | macro_util/src/attributes.rs:112-135 | succeeds exactly on a one-segment path without arguments, giving its identifier; each failure has its own diagnostic at the path |
| Attributes.ToIdentMatchesIsIdent | macro_util/src/attributes.rs:112-135 | without a leading `::`, a path converts to the identifier `n` exactly when it is the identifier `n`; `to_ident` ignores a leading `::`, which `is_ident` refuses |
| Attributes.ListElement | macro_util/src/attributes.rs:32-45 | a literal is kept; a bare identifier becomes a string literal with its text and location; a nested list or `name = value` is rejected at the attribute |
| Attributes.ParseList | macro_util/src/attributes.rs:22-54 | an empty list is rejected; otherwise it succeeds exactly when every element converts, the literals correspond one for one in order, the shape is `SingleList` exactly for one element, and a failure is the first failing element's error |
| Attributes.ParseValues | macro_util/src/attributes.rs:13-61 | a bare path is `Name` with no literals; `name = lit` is `Equals` with that literal; a list is read element by element; the name must convert to an identifier; a success is well-shaped and located at the attribute |
| Attributes.KindDisplay | macro_util/src/attributes.rs:100-109 | the backticked rendering of each form, `List`'s missing closing backtick included; its property is stated by the next row |
| Attributes.KindDisplayHasNoBreak | macro_util/src/attributes.rs:100-109 | every form is shown on one line, so a listing has exactly one line per form |
| Attributes.DisplaySlice | macro_util/src/attributes.rs:139-159 | no forms show as `nothing`; otherwise the text splits at line breaks into exactly the lines `i: form` |
| Attributes.TextFormsListing | macro_util/src/attributes.rs:100-159 | the listing of the two text forms, as the user reads it |
| Attributes.IsFormAcceptable | macro_util/src/attributes.rs:163-169 | a shape is acceptable exactly when it is expected, or it is a one-element list where lists are expected |
| Attributes.WideningIsTheOnlyExtra | macro_util/src/attributes.rs:163-169 | an acceptable shape outside the expected ones can only be the one-element list widening |
| Attributes.Validate | macro_util/src/attributes.rs:173-185 | succeeds exactly on an acceptable shape; otherwise the error is at the record and lists the accepted forms |
| Attributes.ParseString | macro_util/src/attributes.rs:198-204 | text is read exactly from `name = value` and `name(value)` and is the first literal's text; any other shape gives the forms diagnostic |
| Attributes.IdentListedAsText | macro_util/src/attributes.rs:32-45 | in list position a bare identifier and the string literal spelling it read as the same text; a path that is not an identifier gives its own error |
| Diagnostics.Traverse | macro_util/src/structures.rs:179-182 | converting a list succeeds exactly when every element converts, keeping order and count; a failure is the error of the first failing element |
| Structures.IsCooked | macro_util/src/structures.rs:21-27 | an attribute is cooked exactly when its path, without a leading `::`, is one of the eight compiler attribute names |
| Structures.RemoveCooked | macro_util/src/structures.rs:91-105 | what stays is the non-cooked attributes in source order, and what moves out is the cooked ones in source order |
| Structures.CookedSplit | macro_util/src/structures.rs:91-105 | the two groups hold only their own kind, and together they are a permutation of the input |
| Structures.ParseArgument | macro_util/src/structures.rs:30-88 | a named parameter keeps name, mutability and type; `_` is named `_` at the underscore and is never mutable; another pattern or a `self` receiver is rejected with its message |
| Structures.ParseCommandFun | macro_util/src/structures.rs:131-194 | each failed read (attributes, visibility, `async`, `fn`, name, parameters, return type, body) gives its own error in source order; a missing return type fails even when parameters are bad; otherwise the parse succeeds exactly when every parameter converts, and fails with the first failing parameter's error; a success keeps the declaration's visibility, name and body and holds the filtered renamed attributes |
| Structures.ParsedAttributesPartition | macro_util/src/structures.rs:140-144 | the kept and cooked groups partition the renamed attributes and neither holds a `doc` attribute |
| Structures.ReceiverRejected | macro_util/src/structures.rs:179-182 | a `self` receiver anywhere in the parameters fails the declaration |
| Structures.PermissionsFromStr | macro_util/src/structures.rs:215-220 | every permission name is refused |
| Structures.OnlyInFromStr | macro_util/src/structures.rs:246-264 | as written, every restriction text is refused with the restriction-type message |
| Structures.GuildFromStr | macro_util/src/structures.rs:252-261 | a text without a closing `)` is unterminated; otherwise the id between the parentheses is a 64-bit decimal or the id message |
| Text.ParseU64OfNatToString | macro_util/src/structures.rs:257-260 | the decimal spelling of a 64-bit number parses back to that number |
| Structures.OnlyInFromStrIntended | macro_util/src/structures.rs:246-264 | the corrected parser: short texts are refused, it never yields `None`, and yields `Global` exactly for texts starting with `global` |
| Structures.IntendedRestrictionRoundTrip | macro_util/src/structures.rs:250-261 | `global` gives `Global` and `guild(<id>)` gives back that id |
| Structures.IntendedRestrictionRejects | macro_util/src/structures.rs:252-262 | an unterminated id and a misspelt keyword are refused with their messages |
| Structures.GlobalRefusedAsWritten | macro_util/src/structures.rs:250-251 | `global` is refused as written and accepted once corrected |
| Structures.DefaultRestrictionNeverParsed | macro_util/src/structures.rs:280-285 | the default restriction is `None`, and the corrected parser never yields it |
| Structures.NewOptions | macro_util/src/structures.rs:305-313 | help is available and every other field is empty, absent, false or zero |
| Macro.KeyOf | macro_util/src/lib.rs:71-93 | the dispatch never yields `examples`, which has no attribute |
| Macro.KeyOfIsKeyName | macro_util/src/lib.rs:71-93 | the dispatch finds a field exactly under its own attribute name, and never `examples` |
| Macro.KeyOfSound | macro_util/src/lib.rs:71-93 | whatever the dispatch finds is addressed by exactly the name looked up, and is not `examples` |
| Macro.KeyOfComplete | macro_util/src/lib.rs:71-93 | every field except `examples` is found under its own name |
| Macro.Write | macro_util/src/lib.rs:31 | assigning a field gives it the new value and leaves each of the other thirteen fields as it was |
| Macro.WriteKeepsOthers | macro_util/src/lib.rs:31 | after assigning one field, every other field reads as before |
| Macro.WriteDetermined | macro_util/src/lib.rs:31 | the assignment is the only descriptor with the new value in its field and every other field as before |
| Macro.Update | macro_util/src/lib.rs:27-32 | an option-list arm succeeds exactly when the conversion does, sets its own field to the converted value and leaves every other field alone |
| Macro.InvalidAttributeMessage | macro_util/src/lib.rs:33-37 | the `invalid attribute` message quotes the name unescaped, so the name can be read back from between the quotes |
| Macro.Step | macro_util/src/lib.rs:64-96 | a failed attribute read ends the step; a successful step needs a known name and changes only the addressed field |
| Macro.StepRejectsUnknown | macro_util/src/lib.rs:33-37 | a readable attribute with an unknown name is an `invalid attribute` error at the attribute |
| Macro.StepFoldsDescription | macro_util/src/lib.rs:73-76 | a `description` attribute succeeds exactly when its text conversion does and folds that line into the description; a failed conversion's diagnostic, such as the forms error of `parse`, is the step's error unchanged |
| Macro.StepAssigns | macro_util/src/lib.rs:80-93 | any other known attribute succeeds exactly when its conversion does and overwrites its field with the value; a failed conversion's diagnostic is the step's error unchanged |
| Macro.Aggregate | macro_util/src/lib.rs:64-96 | the attribute loop, defined for any input on which it reaches no panicking attribute (attributes after the first failure are unconstrained); on success every attribute was reached, and a field that no attribute addresses keeps its value |
| Macro.AggregateAppend | macro_util/src/lib.rs:64-96 | folding a concatenation folds the first part, then the second from where the first ended, unless the first failed |
| Macro.AggregateStopsAtFirstError | macro_util/src/util.rs:143-150 | the first failing attribute's error is the loop's result, and nothing at all is asked of the attributes after it |
| Macro.UnknownAttributeRejected | macro_util/src/lib.rs:33-37 | after successful attributes, an unknown name ends the loop with its own `invalid attribute` error, whatever follows it |
| Macro.ExamplesUntouched | macro_util/src/lib.rs:80-93 | `examples` is never changed by the loop |
| Macro.LastWriteWins | macro_util/src/lib.rs:31 | when the loop succeeds, an option field ends up holding the conversion of the last attribute that names it |
| Macro.AppendLinesSplit | macro_util/src/util.rs:159-176 | folding two runs of lines is folding the first, then the second |
| Macro.StepDescription | macro_util/src/lib.rs:71-76 | one step moves the description by that attribute's description line, if it has one, and not at all otherwise |
| Macro.DescriptionAccumulates | macro_util/src/lib.rs:64-96 | the final description is the old one with every description line folded in, in source order, whatever attributes sit between them |
| Macro.CommandName | macro_util/src/lib.rs:56-60 | a literal argument gives its text; a non-literal argument is its parse error; no argument gives the function's name without its raw prefix |
| Macro.ApplicationCommand | macro_util/src/lib.rs:44-118 | a declaration error, then a non-literal argument, then the attribute loop's error is the macro's error, in that order; on success the declaration and name come from the steps above, the descriptor is the loop's fold of the recognised attributes from `Options::new()`, no cooked attribute is interpreted, `examples` stays empty and the description is every description line folded in order |
| Macro.CommandKeepsDefaults | macro_util/src/lib.rs:62-96 | a field no recognised attribute addresses keeps its `Options::new()` value in the macro's descriptor |
| Macro.CommandLastWriteWins | macro_util/src/lib.rs:31 | when the macro succeeds, an option field of its descriptor holds the conversion of the last recognised attribute naming it |
| Macro.CommandRejectsUnknown | macro_util/src/lib.rs:33-37 | after successful attributes, an unknown name makes the macro fail with `invalid attribute` at that attribute |
| Macro.CookedNamesUnknown | macro_util/src/lib.rs:71-93 | no cooked name, and not `doc`, is a name the dispatch knows |
| Macro.LeadingColonMisread | macro_util/src/attributes.rs:112-135 | a one-segment path with a leading `::` is neither cooked nor renamed, yet reads as its segment's name, so an unknown name fails the loop as an invalid attribute |

## Left out

- Token-level parsing is not modelled. This covers `parse_meta`, `Attribute::parse_outer`, `Visibility`, the `async` and `fn` tokens, `Parenthesised` and the braced body. Each reading step is a `Result`-valued field of `Syntax.Attribute` or `Structures.Declaration`, because the parser library is not part of this model.
- The generated token streams are not modelled. This covers every `ToTokens` implementation (`Argument`, `AsOption`, `Checks`, `Permissions`, `OnlyIn`) and `into_stream`, because they produce code text only.
- `create_declaration_validations` and the `CHECK` suffix constant are not modelled, because their definitions are not part of this model. The validations run after the attribute loop (lib.rs:115) and can still fail, so `Macro.ApplicationCommand` promises no success when every modelled step succeeds; it states only what a success and each modelled error look like.
- The macro's returned token stream is not modelled. The macro returns its own argument tokens, and `Macro.Command` records the computed declaration, name and descriptor instead.
- The conversions to the option types other than the description's `String` (`AttributeOption` for `Checks` and for `AsOption<String>`, which `bucket` and `usage` use, `Vec<String>`, `bool`, `Permissions`, `Vec<OnlyIn>`, `Vec<Ident>`) are not modelled. Their implementations are not part of this model. They are the uninterpreted functions of `Macro.Converters`. For this reason `Structures.OnlyInFromStr` is not reached from the attribute loop.
- `Util.LitToStr`: byte-string literals carry their already-decoded text, so the unchecked UTF-8 conversion is not modelled.
- `Util.ToUppercase`: upper-cases ASCII letters only. Full Unicode case mapping, which can change a string's length, is not modelled.
- `Structures.PermissionsFromStr`: the upper-casing is likewise ASCII-only. This cannot change the result, which is always `None`.
- `Structures.OnlyInFromStr`: strings are sequences of characters. The byte slicing `&s[0..5]`, and its panic when a multi-byte character straddles byte 5, are not modelled. The length guard counts characters, not bytes.
- The panic of `Ident::new` on a text that is not a valid identifier is not modelled. This affects `Util.LitToIdent`, `Util.ToUppercase` and `Util.WithSuffix`.
- Panics are preconditions rather than outcomes. `Macro.Runs` and `Macro.CommandRuns` require a text literal wherever the source would call `to_str` on one: on the macro's literal argument, and on every `description` attribute that the loop reaches. Attributes after the first failing one are not constrained, because the source never reaches them.
- The `{:?}` rendering of patterns and receivers is a text field of the input. For attribute names in `invalid attribute`, the name is quoted without escaping, which is exact for ASCII identifiers.
- Spans are opaque locations. `dbg!` output and the destructuring of `Options` at the end of the macro are not modelled, because neither changes a result.
- The command name is computed as `Macro.CommandName` does and kept in `Macro.Command`, but the source binds it to `_name` and never uses it; computing it matters only because a non-literal argument ends the macro (lib.rs:57).
- The bot crate under `src/` is not part of this model.

## Findings

| source | as written | input that shows it | evidently intended | confidence | as-written member | corrected member |
|---|---|---|---|---|---|---|
| macro_util/src/structures.rs:250-252 | the head `&s[0..5]` is five bytes long but is compared with the six-byte words `global` and `guild(`, so every restriction is refused | `OnlyIn::from_str("global", span)` gives "invailid restriction type" | compare the six-character head, so `global` gives `Global` and `guild(<id>)` gives `Guild(id)` | not executed | Structures.OnlyInFromStr | Structures.OnlyInFromStrIntended |

`Structures.GlobalRefusedAsWritten` exhibits the discrepancy. `Structures.IntendedRestrictionRoundTrip` proves the intended behaviour of the corrected parser.

=== FILE: attributes.dfy ===
/** Reading one attribute into a uniform `Values` record, and checking a
    record's shape against the shapes a target type accepts before the
    conversion to that type (`AttributeOption`). */
module Attributes {

  import opened Diagnostics
  import opened Syntax
  import opened Text
  import opened Util

  /** The four shapes an attribute can take. */
  datatype ValueKind =
    | Name        // #[name]
    | Equals      // #[name = value]
    | List        // #[name(value, value, ...)]
    | SingleList  // #[name(value)]

  /** One attribute occurrence: its name, shape, literal payload and
      location. */
  datatype Values = Values(name: Ident, kind: ValueKind, literals: seq<Lit>, span: Span) {

    /** The payload size each shape implies. */
    predicate Valid() {
      && (kind == Name <==> |literals| == 0)
      && (kind == Equals ==> |literals| == 1)
      && (kind == SingleList ==> |literals| == 1)
      && (kind == List ==> |literals| >= 2)
    }
  }

  /** `to_ident`: the identifier of a path made of exactly one segment
      without arguments; each other case has its own diagnostic. */
  function ToIdent(p: Path): (r: Result<Ident>)
    ensures r.Ok? <==> |p.segments| == 1 && !p.segments[0].hasArgs
    ensures r.Ok? ==> r.value == p.segments[0].ident
    ensures |p.segments| == 0 ==>
              r == Err(Error(p.span, "cannot convert an empty path to an identifier"))
    ensures |p.segments| > 1 ==>
              r == Err(Error(p.span, "the path must not have more than one segment"))
    ensures |p.segments| == 1 && p.segments[0].hasArgs ==>
              r == Err(Error(p.span, "the singular path segment must not have any arguments"))
  {
    if |p.segments| == 0 then
      Err(Error(p.span, "cannot convert an empty path to an identifier"))
    else if |p.segments| > 1 then
      Err(Error(p.span, "the path must not have more than one segment"))
    else if p.segments[0].hasArgs then
      Err(Error(p.span, "the singular path segment must not have any arguments"))
    else
      Ok(p.segments[0].ident)
  }

  /** Without a leading `::`, a path converts to an identifier spelled `n`
      exactly when the path is the identifier `n` in the sense of
      `Path::is_ident`; `to_ident` ignores a leading `::`, which `is_ident`
      refuses. */
  lemma ToIdentMatchesIsIdent(p: Path, n: string)
    ensures p.IsIdent(n) ==> ToIdent(p) == Ok(p.segments[0].ident) && p.segments[0].ident.text == n
    ensures !p.leadingColon ==> ((ToIdent(p).Ok? && ToIdent(p).value.text == n) <==> p.IsIdent(n))
    ensures p.leadingColon ==> !p.IsIdent(n) && ToIdent(p) == ToIdent(p.(leadingColon := false))
  {
  }

  const NestingMessage: string :=
    "cannot nest a list; only accept literals and identifiers at this level"

  /** One element of a parenthesised list: a literal is kept; a bare
      identifier becomes a string literal with the identifier's text and
      location; a nested list or `name = value` is rejected at the
      attribute's location. */
  function ListElement(n: NestedMeta, attrSpan: Span): (r: Result<Lit>)
    ensures n.NestedLit? ==> r == Ok(n.lit)
    ensures n.NestedItem? && n.meta.PathMeta? ==>
              match ToIdent(n.meta.path)
              case Ok(id) => r == Ok(Str(id.text, id.span))
              case Err(e) => r == Err(e)
    ensures n.NestedItem? && !n.meta.PathMeta? ==> r == Err(Error(attrSpan, NestingMessage))
  {
    match n
    case NestedLit(l) => Ok(l)
    case NestedItem(PathMeta(path)) =>
      var id :- ToIdent(path);
      Ok(Str(id.text, id.span))
    case NestedItem(_) => Err(Error(attrSpan, NestingMessage))
  }

  /** The list arm of `parse_values`: an empty list is rejected; otherwise
      each element gives one literal, in order, the first failing element
      failing the whole list, and the shape is `SingleList` for one element
      and `List` for more. */
  function ParseList(name: Ident, nested: seq<NestedMeta>, span: Span): (r: Result<Values>)
    ensures |nested| == 0 ==> r == Err(Error(span, "list cannot be empty"))
    ensures r.Ok? ==> r.value.Valid() && r.value.span == span && r.value.name == name
    ensures |nested| > 0 ==>
              && (r.Ok? <==> forall i :: 0 <= i < |nested| ==> ListElement(nested[i], span).Ok?)
              && (r.Ok? ==> |r.value.literals| == |nested|
                            && (forall i :: 0 <= i < |nested| ==>
                                  r.value.literals[i] == ListElement(nested[i], span).value)
                            && (r.value.kind == SingleList <==> |nested| == 1)
                            && (r.value.kind == List <==> |nested| > 1))
              && (r.Err? ==> exists k :: 0 <= k < |nested| && ListElement(nested[k], span) == Err(r.error)
                                         && forall i :: 0 <= i < k ==> ListElement(nested[i], span).Ok?)
  {
    if |nested| == 0 then Err(Error(span, "list cannot be empty"))
    else
      var lits :- Traverse((n: NestedMeta) => ListElement(n, span), nested);
      var kind := if |lits| == 1 then SingleList else List;
      Ok(Values(name, kind, lits, span))
  }

  /** `parse_values`: classifies an attribute by its shape.  A bare path
      is `Name` with no literals; `name = lit` is `Equals` with that literal;
      a list is read by `ParseList`.  The name must be a plain identifier. */
  function ParseValues(attr: Attribute): (r: Result<Values>)
    ensures r.Ok? ==> r.value.Valid() && r.value.span == attr.span
    ensures r.Ok? ==> ToIdent(attr.path) == Ok(r.value.name)
    ensures attr.input.Malformed? ==> r == Err(attr.input.error)
    ensures !attr.input.Malformed? && ToIdent(attr.path).Err? ==> r == Err(ToIdent(attr.path).error)
    ensures attr.input.Bare? && ToIdent(attr.path).Ok? ==>
              r == Ok(Values(ToIdent(attr.path).value, Name, [], attr.span))
    ensures attr.input.Assigned? && ToIdent(attr.path).Ok? ==>
              r == Ok(Values(ToIdent(attr.path).value, Equals, [attr.input.lit], attr.span))
    ensures attr.input.Parenthesized? && ToIdent(attr.path).Ok? ==>
              r == ParseList(ToIdent(attr.path).value, attr.input.nested, attr.span)
  {
    var meta :- ParseMeta(attr);
    match meta
    case PathMeta(path) =>
      var name :- ToIdent(path);
      Ok(Values(name, Name, [], attr.span))
    case ListMeta(path, nested) =>
      var name :- ToIdent(path);
      ParseList(name, nested, attr.span)
    case NameValueMeta(path, lit) =>
      var name :- ToIdent(path);
      Ok(Values(name, Equals, [lit], attr.span))
  }

  /** How each shape is shown to the user (`Display for ValueKind`).  The
      rendering of `List` lacks its closing backtick, as in the source. */
  function KindDisplay(k: ValueKind): string {
    match k
    case Name => "`#[<name>]`"
    case Equals => "`#[<name> = <value>]`"
    case List => "`#[<name>([<value>, <value>, <value>, ...])]"
    case SingleList => "`#[<name>(<value>)]`"
  }

  /** One line of a forms listing: the form's position, a colon, the form. */
  function FormLine(i: nat, k: ValueKind): string {
    NatToString(i) + ": " + KindDisplay(k)
  }

  function FormLines(forms: seq<ValueKind>): seq<string> {
    seq(|forms|, i requires 0 <= i < |forms| => FormLine(i, forms[i]))
  }

  lemma KindDisplayHasNoBreak(k: ValueKind)
    ensures '\n' !in KindDisplay(k)
  {
    match k
    case Name => assert '\n' !in "`#[<name>]`";
    case Equals => assert '\n' !in "`#[<name> = <value>]`";
    case List => assert '\n' !in "`#[<name>([<value>, <value>, <value>, ...])]";
    case SingleList => assert '\n' !in "`#[<name>(<value>)]`";
  }

  lemma FormLineHasNoBreak(i: nat, k: ValueKind)
    ensures '\n' !in FormLine(i, k)
  {
    var digits := NatToString(i);
    assert '\n' !in digits by {
      assert forall j :: 0 <= j < |digits| ==> IsDigit(digits[j]);
    }
    assert '\n' !in ": ";
    KindDisplayHasNoBreak(k);
    assert FormLine(i, k) == digits + ": " + KindDisplay(k);
  }

  /** `DisplaySlice`: "nothing" for no forms; otherwise one line per form,
      `i: form`, separated by line breaks. */
  function DisplaySlice(forms: seq<ValueKind>): (r: string)
    ensures |forms| == 0 ==> r == "nothing"
    ensures |forms| > 0 ==> Split(r, '\n') == FormLines(forms)
  {
    if |forms| == 0 then "nothing"
    else
      var lines := FormLines(forms);
      assert forall i :: 0 <= i < |lines| ==> '\n' !in lines[i] by {
        forall i | 0 <= i < |lines|
          ensures '\n' !in lines[i]
        {
          FormLineHasNoBreak(i, forms[i]);
        }
      }
      SplitJoin(lines, '\n');
      Join(lines, '\n')
  }

  /** `is_form_acceptable`: the shape is one of the expected ones, or it is
      a one-element list where lists are expected (the only widening). */
  function IsFormAcceptable(expected: seq<ValueKind>, kind: ValueKind): (r: bool)
    ensures r <==> kind in expected || (List in expected && kind == SingleList)
  {
    if List in expected && kind == SingleList then true else kind in expected
  }

  /** A shape outside the expected ones is accepted only by the widening. */
  lemma WideningIsTheOnlyExtra(expected: seq<ValueKind>, kind: ValueKind)
    requires IsFormAcceptable(expected, kind) && kind !in expected
    ensures kind == SingleList && List in expected
  {
  }

  const FormsHeader: string := "the attribute must be in of these forms:\n"

  /** `validate`: fails, at the record's location and listing the accepted
      forms, exactly when the shape is not acceptable. */
  function Validate(values: Values, forms: seq<ValueKind>): (r: Result<()>)
    ensures r.Ok? <==> IsFormAcceptable(forms, values.kind)
    ensures r.Err? ==> r.error == Error(values.span, FormsHeader + DisplaySlice(forms))
  {
    if !IsFormAcceptable(forms, values.kind) then
      Err(Error(values.span, FormsHeader + DisplaySlice(forms)))
    else Ok(())
  }

  /** The shapes plain text accepts. */
  const TextForms: seq<ValueKind> := [Equals, SingleList]

  lemma FirstTextFormLine()
    ensures FormLine(0, Equals) == "0: `#[<name> = <value>]`"
  {
    assert NatToString(0) == "0";
    var l := "0" + ": " + "`#[<name> = <value>]`";
    assert forall j :: 0 <= j < |l| ==> l[j] == "0: `#[<name> = <value>]`"[j];
  }

  lemma SecondTextFormLine()
    ensures FormLine(1, SingleList) == "1: `#[<name>(<value>)]`"
  {
    assert NatToString(1) == "1";
    var l := "1" + ": " + "`#[<name>(<value>)]`";
    assert forall j :: 0 <= j < |l| ==> l[j] == "1: `#[<name>(<value>)]`"[j];
  }

  /** The listing of the text shapes, as the user sees it. */
  lemma TextFormsListing()
    ensures DisplaySlice(TextForms) == "0: `#[<name> = <value>]`\n1: `#[<name>(<value>)]`"
  {
    FirstTextFormLine();
    SecondTextFormLine();
    var lines := FormLines(TextForms);
    assert lines == ["0: `#[<name> = <value>]`", "1: `#[<name>(<value>)]`"];
    assert lines[1..] == ["1: `#[<name>(<value>)]`"];
    var whole := "0: `#[<name> = <value>]`" + "\n" + "1: `#[<name>(<value>)]`";
    assert forall j :: 0 <= j < |whole| ==> whole[j] == "0: `#[<name> = <value>]`\n1: `#[<name>(<value>)]`"[j];
  }

  /** What the text conversion needs to avoid `to_str`'s panic: a text
      literal wherever a text shape is present. */
  predicate TextReady(values: Values) {
    (values.kind == Equals || values.kind == SingleList) ==>
      |values.literals| >= 1 && IsText(values.literals[0])
  }

  /** `AttributeOption for String`: accepts only `#[name = value]` and
      `#[name(value)]` and yields the text of the literal; any other shape
      is rejected with the listing of the two accepted forms. */
  function ParseString(values: Values): (r: Result<string>)
    requires TextReady(values)
    ensures r.Ok? <==> values.kind == Equals || values.kind == SingleList
    ensures r.Ok? ==> r.value == LitToStr(values.literals[0])
    ensures r.Err? ==> r.error == Error(values.span, FormsHeader + DisplaySlice(TextForms))
  {
    var _ :- Validate(values, TextForms);
    Ok(LitToStr(values.literals[0]))
  }

  /** In list position a bare identifier and the string literal spelling it
      are interchangeable: `#[name(ident)]` and `#[name("ident")]` read as
      the same text.  A path that is not an identifier is its own error. */
  lemma IdentListedAsText(name: Ident, p: Path, span: Span, litSpan: Span)
    ensures ToIdent(p).Err? ==>
              ParseList(name, [NestedItem(PathMeta(p))], span) == Err(ToIdent(p).error)
    ensures ToIdent(p).Ok? ==>
              var viaIdent := ParseList(name, [NestedItem(PathMeta(p))], span);
              var viaText := ParseList(name, [NestedLit(Str(ToIdent(p).value.text, litSpan))], span);
              && viaIdent.Ok? && viaText.Ok?
              && TextReady(viaIdent.value) && TextReady(viaText.value)
              && ParseString(viaIdent.value) == ParseString(viaText.value) == Ok(ToIdent(p).value.text)
  {
  }
}

=== FILE: diagnostics.dfy ===
/** Source locations, diagnostics, and the failure-compatible result types
    that every step of the macro front end threads through.

    The front end never recovers from an error: the first diagnostic ends the
    whole run.  Dafny's `:-` on `Result` plays the part of the `?` operator and
    of the `propagate_err!` macro. */
module Diagnostics {

  /** An opaque source location.  `CallSite` is the location the compiler
      gives to tokens a macro creates itself (`Span::call_site()`). */
  datatype Span = CallSite | At(offset: nat)

  /** A diagnostic: a message reported at a location. */
  datatype Error = Error(span: Span, message: string)

  /** The outcome of a step that may fail with a diagnostic. */
  datatype Result<+T> = Ok(value: T) | Err(error: Error) {

    predicate IsFailure() {
      Err?
    }

    function PropagateFailure<U>(): Result<U>
      requires Err?
    {
      Err(error)
    }

    function Extract(): T
      requires Ok?
    {
      value
    }
  }

  /** An optional value. */
  datatype Option<+T> = None | Some(value: T) {

    /** The value, or `default` when there is none. */
    function GetOr(default: T): T {
      match this
      case Some(v) => v
      case None => default
    }
  }

  /** Applies `f` to every element, left to right, and collects the results,
      stopping at the first element that fails; this is what
      `iter.map(f).collect::<Result<Vec<_>>>()` does. */
  function Traverse<A, B>(f: A -> Result<B>, xs: seq<A>): (r: Result<seq<B>>)
    ensures r.Ok? <==> forall i :: 0 <= i < |xs| ==> f(xs[i]).Ok?
    ensures r.Ok? ==> |r.value| == |xs|
    ensures r.Ok? ==> forall i :: 0 <= i < |xs| ==> r.value[i] == f(xs[i]).value
    ensures r.Err? ==> exists k :: 0 <= k < |xs| && f(xs[k]) == Err(r.error)
                                   && forall i :: 0 <= i < k ==> f(xs[i]).Ok?
  {
    if |xs| == 0 then Ok([])
    else
      match f(xs[0])
      case Err(e) => Err(e)
      case Ok(y) =>
        match Traverse(f, xs[1..])
        case Err(e) =>
          ghost var k :| 0 <= k < |xs[1..]| && f(xs[1..][k]) == Err(e)
                         && forall i :: 0 <= i < k ==> f(xs[1..][i]).Ok?;
          assert f(xs[k + 1]) == Err(e);
          assert forall i :: 0 < i < k + 1 ==> f(xs[i]) == f(xs[1..][i - 1]);
          Err(e)
        case Ok(ys) => Ok([y] + ys)
  }
}

=== FILE: macro.dfy ===
/** The attribute macro itself: parse the declaration, choose the command
    name, and fold every recognised attribute, in source order, into an
    `Options` descriptor, dispatching on the attribute's name.  The first
    diagnostic from any step ends the run.

    Only the text conversion is defined by this crate; the conversions to
    the other field types are supplied as `Converters`, functions about
    which nothing is assumed. */
module Macro {

  import opened Diagnostics
  import opened Syntax
  import opened Text
  import opened Seqs
  import opened Util
  import opened Attributes
  import opened Structures

  /** The fields of `Options`. */
  datatype Key =
    | Checks | Bucket | Aliases | Description | Delimiters | Usage | Examples
    | AllowedRoles | RequiredPermissions | HelpAvailable | OnlyIn | OwnersOnly
    | OwnerPrivilege | SubCommands

  /** The attribute name that addresses each field. */
  function KeyName(k: Key): string {
    match k
    case Checks => "checks"
    case Bucket => "bucket"
    case Aliases => "aliases"
    case Description => "description"
    case Delimiters => "delimiters"
    case Usage => "usage"
    case Examples => "examples"
    case AllowedRoles => "allowed_roles"
    case RequiredPermissions => "required_permissions"
    case HelpAvailable => "help_available"
    case OnlyIn => "only_in"
    case OwnersOnly => "owners_only"
    case OwnerPrivilege => "owner_privilege"
    case SubCommands => "sub_commands"
  }

  /** Whether an attribute can address the field: every field except
      `examples`, which has no attribute. */
  predicate Dispatched(k: Key) {
    k != Examples
  }

  /** The dispatch on an attribute's name: `description` and the twelve
      names of the option list; every other name is unknown. */
  function KeyOf(name: string): (r: Option<Key>)
    ensures r.Some? ==> Dispatched(r.value)
  {
    if name == "description" then Some(Description)
    else if name == "checks" then Some(Checks)
    else if name == "bucket" then Some(Bucket)
    else if name == "aliases" then Some(Aliases)
    else if name == "delimiters" then Some(Delimiters)
    else if name == "usage" then Some(Usage)
    else if name == "required_permissions" then Some(RequiredPermissions)
    else if name == "allowed_roles" then Some(AllowedRoles)
    else if name == "help_available" then Some(HelpAvailable)
    else if name == "only_in" then Some(OnlyIn)
    else if name == "owners_only" then Some(OwnersOnly)
    else if name == "owner_privilege" then Some(OwnerPrivilege)
    else if name == "sub_commands" then Some(SubCommands)
    else Option.None
  }

  /** The dispatch finds exactly the fields an attribute can address, each
      under its own name. */
  lemma KeyOfIsKeyName(name: string, k: Key)
    ensures KeyOf(name) == Some(k) <==> Dispatched(k) && name == KeyName(k)
  {
    if KeyOf(name) == Some(k) {
      KeyOfSound(name);
    } else if Dispatched(k) && name == KeyName(k) {
      KeyOfComplete(k);
    }
  }

  /** Whatever the dispatch finds is addressed by exactly that name. */
  lemma KeyOfSound(name: string)
    ensures KeyOf(name).Some? ==> Dispatched(KeyOf(name).value) && name == KeyName(KeyOf(name).value)
  {
    var r := KeyOf(name);
    if r.Some? {
      var k := r.value;
      assert Dispatched(k) && name == KeyName(k) by {
        if name == "description" { assert k == Description; }
        else if name == "checks" { assert k == Checks; }
        else if name == "bucket" { assert k == Bucket; }
        else if name == "aliases" { assert k == Aliases; }
        else if name == "delimiters" { assert k == Delimiters; }
        else if name == "usage" { assert k == Usage; }
        else if name == "required_permissions" { assert k == RequiredPermissions; }
        else if name == "allowed_roles" { assert k == AllowedRoles; }
        else if name == "help_available" { assert k == HelpAvailable; }
        else if name == "only_in" { assert k == OnlyIn; }
        else if name == "owners_only" { assert k == OwnersOnly; }
        else if name == "owner_privilege" { assert k == OwnerPrivilege; }
        else { assert name == "sub_commands" && k == SubCommands; }
      }
    }
  }

  /** Every field but `examples` is found under its own name. */
  lemma KeyOfComplete(k: Key)
    requires Dispatched(k)
    ensures KeyOf(KeyName(k)) == Some(k)
  {
    match k
    case Checks =>
    case Bucket =>
    case Aliases =>
    case Description =>
    case Delimiters =>
    case Usage =>
    case AllowedRoles =>
    case RequiredPermissions =>
    case HelpAvailable =>
    case OnlyIn =>
    case OwnersOnly =>
    case OwnerPrivilege =>
    case SubCommands =>
  }

  /** The value of one field, whatever its type. */
  datatype FieldValue =
    | IdentList(idents: seq<Ident>)
    | OptionalText(text: AsOption<string>)
    | TextList(texts: seq<string>)
    | Flag(flag: bool)
    | Restrictions(restrictions: seq<Structures.OnlyIn>)
    | PermissionBits(permissions: Permissions)

  /** The value of field `k` of `o`. */
  function Project(o: Options, k: Key): FieldValue {
    match k
    case Checks => IdentList(o.checks)
    case Bucket => OptionalText(o.bucket)
    case Aliases => TextList(o.aliases)
    case Description => OptionalText(o.description)
    case Delimiters => TextList(o.delimiters)
    case Usage => OptionalText(o.usage)
    case Examples => TextList(o.examples)
    case AllowedRoles => TextList(o.allowedRoles)
    case RequiredPermissions => PermissionBits(o.requiredPermissions)
    case HelpAvailable => Flag(o.helpAvailable)
    case OnlyIn => Restrictions(o.onlyIn)
    case OwnersOnly => Flag(o.ownersOnly)
    case OwnerPrivilege => Flag(o.ownerPrivilege)
    case SubCommands => IdentList(o.subCommands)
  }

  /** Two descriptors that agree on every field are the same descriptor. */
  lemma ProjectDetermines(o: Options, o': Options)
    requires forall k :: Project(o, k) == Project(o', k)
    ensures o == o'
  {
    assert Project(o, Checks) == Project(o', Checks);
    assert Project(o, Bucket) == Project(o', Bucket);
    assert Project(o, Aliases) == Project(o', Aliases);
    assert Project(o, Description) == Project(o', Description);
    assert Project(o, Delimiters) == Project(o', Delimiters);
    assert Project(o, Usage) == Project(o', Usage);
    assert Project(o, Examples) == Project(o', Examples);
    assert Project(o, AllowedRoles) == Project(o', AllowedRoles);
    assert Project(o, RequiredPermissions) == Project(o', RequiredPermissions);
    assert Project(o, HelpAvailable) == Project(o', HelpAvailable);
    assert Project(o, OnlyIn) == Project(o', OnlyIn);
    assert Project(o, OwnersOnly) == Project(o', OwnersOnly);
    assert Project(o, OwnerPrivilege) == Project(o', OwnerPrivilege);
    assert Project(o, SubCommands) == Project(o', SubCommands);
  }

  /** The conversions to the field types other than text
      (`AttributeOption` for those types). */
  datatype Converters = Converters(
    checks: Values -> Result<seq<Ident>>,
    bucket: Values -> Result<AsOption<string>>,
    aliases: Values -> Result<seq<string>>,
    delimiters: Values -> Result<seq<string>>,
    usage: Values -> Result<AsOption<string>>,
    requiredPermissions: Values -> Result<Permissions>,
    allowedRoles: Values -> Result<seq<string>>,
    helpAvailable: Values -> Result<bool>,
    onlyIn: Values -> Result<seq<Structures.OnlyIn>>,
    ownersOnly: Values -> Result<bool>,
    ownerPrivilege: Values -> Result<bool>,
    subCommands: Values -> Result<seq<Ident>>)

  /** The fields the option list assigns outright. */
  predicate AssignedByOptionList(k: Key) {
    k != Description && k != Examples
  }

  /** Whether `v` has the type of field `k`. */
  predicate Fits(k: Key, v: FieldValue) {
    match k
    case Checks | SubCommands => v.IdentList?
    case Bucket | Description | Usage => v.OptionalText?
    case Aliases | Delimiters | Examples | AllowedRoles => v.TextList?
    case RequiredPermissions => v.PermissionBits?
    case HelpAvailable | OwnersOnly | OwnerPrivilege => v.Flag?
    case OnlyIn => v.Restrictions?
  }

  /** Field `k` of `o` overwritten with `v`; every other field is kept. */
  function Write(o: Options, k: Key, v: FieldValue): (r: Options)
    requires Fits(k, v)
    ensures Project(r, k) == v
    ensures k != Checks ==> r.checks == o.checks
    ensures k != Bucket ==> r.bucket == o.bucket
    ensures k != Aliases ==> r.aliases == o.aliases
    ensures k != Description ==> r.description == o.description
    ensures k != Delimiters ==> r.delimiters == o.delimiters
    ensures k != Usage ==> r.usage == o.usage
    ensures k != Examples ==> r.examples == o.examples
    ensures k != AllowedRoles ==> r.allowedRoles == o.allowedRoles
    ensures k != RequiredPermissions ==> r.requiredPermissions == o.requiredPermissions
    ensures k != HelpAvailable ==> r.helpAvailable == o.helpAvailable
    ensures k != OnlyIn ==> r.onlyIn == o.onlyIn
    ensures k != OwnersOnly ==> r.ownersOnly == o.ownersOnly
    ensures k != OwnerPrivilege ==> r.ownerPrivilege == o.ownerPrivilege
    ensures k != SubCommands ==> r.subCommands == o.subCommands
  {
    match k
    case Checks => o.(checks := v.idents)
    case Bucket => o.(bucket := v.text)
    case Aliases => o.(aliases := v.texts)
    case Description => o.(description := v.text)
    case Delimiters => o.(delimiters := v.texts)
    case Usage => o.(usage := v.text)
    case Examples => o.(examples := v.texts)
    case AllowedRoles => o.(allowedRoles := v.texts)
    case RequiredPermissions => o.(requiredPermissions := v.permissions)
    case HelpAvailable => o.(helpAvailable := v.flag)
    case OnlyIn => o.(onlyIn := v.restrictions)
    case OwnersOnly => o.(ownersOnly := v.flag)
    case OwnerPrivilege => o.(ownerPrivilege := v.flag)
    case SubCommands => o.(subCommands := v.idents)
  }

  /** Writing one field leaves the value of every other field as it was. */
  lemma WriteKeepsOthers(o: Options, k: Key, v: FieldValue)
    requires Fits(k, v)
    ensures forall k' :: k' != k ==> Project(Write(o, k, v), k') == Project(o, k')
  {
    var r := Write(o, k, v);
    forall k' | k' != k
      ensures Project(r, k') == Project(o, k')
    {
      match k'
      case Checks =>
      case Bucket =>
      case Aliases =>
      case Description =>
      case Delimiters =>
      case Usage =>
      case Examples =>
      case AllowedRoles =>
      case RequiredPermissions =>
      case HelpAvailable =>
      case OnlyIn =>
      case OwnersOnly =>
      case OwnerPrivilege =>
      case SubCommands =>
    }
  }

  /** The assignment is the only descriptor with the new value in field `k`
      and every other field as before. */
  lemma WriteDetermined(o: Options, k: Key, v: FieldValue, o': Options)
    requires Fits(k, v)
    requires Project(o', k) == v
    requires forall k' :: k' != k ==> Project(o', k') == Project(o, k')
    ensures o' == Write(o, k, v)
  {
    WriteKeepsOthers(o, k, v);
    ProjectDetermines(o', Write(o, k, v));
  }

  /** The conversion of `values` to the type of field `k`. */
  function Convert(conv: Converters, k: Key, values: Values): (r: Result<FieldValue>)
    requires AssignedByOptionList(k)
    ensures r.Ok? ==> Fits(k, r.value)
  {
    match k
    case Checks => var v :- conv.checks(values); Ok(IdentList(v))
    case Bucket => var v :- conv.bucket(values); Ok(OptionalText(v))
    case Aliases => var v :- conv.aliases(values); Ok(TextList(v))
    case Delimiters => var v :- conv.delimiters(values); Ok(TextList(v))
    case Usage => var v :- conv.usage(values); Ok(OptionalText(v))
    case RequiredPermissions => var v :- conv.requiredPermissions(values); Ok(PermissionBits(v))
    case AllowedRoles => var v :- conv.allowedRoles(values); Ok(TextList(v))
    case HelpAvailable => var v :- conv.helpAvailable(values); Ok(Flag(v))
    case OnlyIn => var v :- conv.onlyIn(values); Ok(Restrictions(v))
    case OwnersOnly => var v :- conv.ownersOnly(values); Ok(Flag(v))
    case OwnerPrivilege => var v :- conv.ownerPrivilege(values); Ok(Flag(v))
    case SubCommands => var v :- conv.subCommands(values); Ok(IdentList(v))
  }

  /** One arm of `match_options!`: converts the attribute to the field's
      type and overwrites that field; no other field changes. */
  function Update(o: Options, k: Key, values: Values, conv: Converters): (r: Result<Options>)
    requires AssignedByOptionList(k)
    ensures r.Ok? <==> Convert(conv, k, values).Ok?
    ensures r.Err? ==> r.error == Convert(conv, k, values).error
    ensures r.Ok? ==> Project(r.value, k) == Convert(conv, k, values).value
    ensures r.Ok? ==> forall k' :: k' != k ==> Project(r.value, k') == Project(o, k')
  {
    var v :- Convert(conv, k, values);
    WriteKeepsOthers(o, k, v);
    Ok(Write(o, k, v))
  }

  /** Replaces the description; no other field changes. */
  function SetDescription(o: Options, d: AsOption<string>): (r: Options)
    ensures Project(r, Description) == OptionalText(d)
    ensures forall k :: k != Description ==> Project(r, k) == Project(o, k)
  {
    WriteKeepsOthers(o, Description, OptionalText(d));
    Write(o, Description, OptionalText(d))
  }

  /** `format!("invalid attribute: {:?}", name)`; an identifier's text never
      needs escaping inside the quotes, so the name can be read back from
      between them. */
  function InvalidAttributeMessage(name: string): (r: string)
    ensures |r| == |name| + 21 && r[20..|r| - 1] == name
  {
    "invalid attribute: \"" + name + "\""
  }

  /** The field an attribute addresses, if it reads and its name is known. */
  function AttrKey(attr: Attribute): Option<Key> {
    match ParseValues(attr)
    case Ok(v) => KeyOf(v.name.text)
    case Err(_) => Option.None
  }

  /** A `description` attribute carries a text literal when it has a text
      shape; otherwise converting it panics. */
  predicate NoPanic(attr: Attribute) {
    match ParseValues(attr)
    case Ok(v) => v.name.text == "description" ==> TextReady(v)
    case Err(_) => true
  }

  /** One iteration of the attribute loop: read the attribute, then fold a
      `description` into the description, assign a listed option, or reject
      an unknown name.  Success touches only the field the attribute
      addresses. */
  function Step(o: Options, attr: Attribute, conv: Converters): (r: Result<Options>)
    requires NoPanic(attr)
    ensures ParseValues(attr).Err? ==> r == Err(ParseValues(attr).error)
    ensures r.Ok? ==> AttrKey(attr).Some?
    ensures r.Ok? ==> forall k :: Some(k) != AttrKey(attr) ==> Project(r.value, k) == Project(o, k)
  {
    var values :- ParseValues(attr);
    var key := KeyOf(values.name.text);
    assert AttrKey(attr) == key;
    if key == Some(Description) then
      var line :- ParseString(values);
      Ok(SetDescription(o, AppendLine(o.description, line)))
    else if key.Some? then
      KeyOfIsKeyName(values.name.text, key.value);
      Update(o, key.value, values, conv)
    else
      Err(Error(attr.span, InvalidAttributeMessage(values.name.text)))
  }

  /** An attribute with a readable but unknown name fails at its own
      location, naming it. */
  lemma StepRejectsUnknown(o: Options, attr: Attribute, conv: Converters)
    requires NoPanic(attr)
    requires ParseValues(attr).Ok? && AttrKey(attr).None?
    ensures Step(o, attr, conv)
         == Err(Error(attr.span, InvalidAttributeMessage(ParseValues(attr).value.name.text)))
  {
  }

  /** A `description` attribute is converted to text and folded into the
      description; a failed conversion's diagnostic is the step's. */
  lemma StepFoldsDescription(o: Options, attr: Attribute, conv: Converters)
    requires NoPanic(attr)
    requires AttrKey(attr) == Some(Description)
    ensures var line := ParseString(ParseValues(attr).value);
            && (Step(o, attr, conv).Ok? <==> line.Ok?)
            && (line.Ok? ==> Step(o, attr, conv).value.description == AppendLine(o.description, line.value))
            && (line.Err? ==> Step(o, attr, conv) == Err(line.error))
  {
    KeyOfIsKeyName(ParseValues(attr).value.name.text, Description);
  }

  /** Any other known attribute is converted to its field's type and
      overwrites that field; a failed conversion's diagnostic is the
      step's. */
  lemma StepAssigns(o: Options, attr: Attribute, conv: Converters)
    requires NoPanic(attr)
    requires AttrKey(attr).Some? && AssignedByOptionList(AttrKey(attr).value)
    ensures var c := Convert(conv, AttrKey(attr).value, ParseValues(attr).value);
            && (Step(o, attr, conv).Ok? <==> c.Ok?)
            && (c.Ok? ==> Project(Step(o, attr, conv).value, AttrKey(attr).value) == c.value)
            && (c.Err? ==> Step(o, attr, conv) == Err(c.error))
  {
    KeyOfIsKeyName(ParseValues(attr).value.name.text, AttrKey(attr).value);
  }

  /** Every attribute of the list can be converted without a panic. */
  predicate AllNoPanic(attrs: seq<Attribute>)
    decreases |attrs|
  {
    |attrs| == 0 || (NoPanic(attrs[0]) && AllNoPanic(attrs[1..]))
  }

  /** No attribute of the list addresses field `k`. */
  predicate Unaddressed(attrs: seq<Attribute>, k: Key)
    decreases |attrs|
  {
    |attrs| == 0 || (AttrKey(attrs[0]) != Some(k) && Unaddressed(attrs[1..], k))
  }

  /** The loop from `o` reaches an attribute only when every earlier one
      succeeded, and each attribute it reaches converts without a panic.
      Attributes after the first failing one are unconstrained. */
  predicate Runs(o: Options, attrs: seq<Attribute>, conv: Converters)
    decreases |attrs|
  {
    |attrs| == 0
    || (NoPanic(attrs[0])
        && (Step(o, attrs[0], conv).Ok? ==> Runs(Step(o, attrs[0], conv).value, attrs[1..], conv)))
  }

  /** The attribute loop of `application_command`: every attribute in order,
      each one's result the next one's start; the first error ends it.  A
      successful run has reached, and so converted, every attribute. */
  function Aggregate(o: Options, attrs: seq<Attribute>, conv: Converters): (r: Result<Options>)
    requires Runs(o, attrs, conv)
    ensures r.Ok? ==> AllNoPanic(attrs)
    ensures r.Ok? ==> forall k :: Unaddressed(attrs, k) ==> Project(r.value, k) == Project(o, k)
    decreases |attrs|
  {
    if |attrs| == 0 then Ok(o)
    else
      var o' :- Step(o, attrs[0], conv);
      Aggregate(o', attrs[1..], conv)
  }

  /** Folding a concatenation folds the first part, then the second from
      where the first left off. */
  lemma {:induction false} AggregateAppend(o: Options, a: seq<Attribute>, b: seq<Attribute>, conv: Converters)
    requires Runs(o, a, conv)
    requires Aggregate(o, a, conv).Ok? ==> Runs(Aggregate(o, a, conv).value, b, conv)
    ensures Runs(o, a + b, conv)
    ensures Aggregate(o, a + b, conv) ==
              match Aggregate(o, a, conv)
              case Ok(o') => Aggregate(o', b, conv)
              case Err(e) => Err(e)
    decreases |a|
  {
    if |a| == 0 {
      assert a + b == b;
    } else {
      assert (a + b)[0] == a[0];
      assert (a + b)[1..] == a[1..] + b;
      match Step(o, a[0], conv)
      case Err(e) =>
      case Ok(o1) =>
        AggregateAppend(o1, a[1..], b, conv);
    }
  }

  /** The first failing attribute ends the run with its own diagnostic;
      later attributes are never looked at, so nothing is asked of them. */
  lemma AggregateStopsAtFirstError(o: Options, a: seq<Attribute>, x: Attribute, b: seq<Attribute>,
                                   conv: Converters)
    requires Runs(o, a, conv) && NoPanic(x)
    requires Aggregate(o, a, conv).Ok?
    requires Step(Aggregate(o, a, conv).value, x, conv).Err?
    ensures Runs(o, a + [x] + b, conv)
    ensures Aggregate(o, a + [x] + b, conv) == Err(Step(Aggregate(o, a, conv).value, x, conv).error)
  {
    var xb := [x] + b;
    assert xb[0] == x && xb[1..] == b;
    assert Runs(Aggregate(o, a, conv).value, xb, conv);
    AggregateAppend(o, a, xb, conv);
    assert a + [x] + b == a + xb;
  }

  /** An attribute with an unknown name fails the run at its own location,
      naming it, unless an earlier attribute already failed. */
  lemma UnknownAttributeRejected(o: Options, a: seq<Attribute>, x: Attribute, b: seq<Attribute>,
                                 conv: Converters)
    requires Runs(o, a, conv)
    requires ParseValues(x).Ok? && KeyOf(ParseValues(x).value.name.text).None?
    requires Aggregate(o, a, conv).Ok?
    ensures Runs(o, a + [x] + b, conv)
    ensures Aggregate(o, a + [x] + b, conv)
         == Err(Error(x.span, InvalidAttributeMessage(ParseValues(x).value.name.text)))
  {
    StepRejectsUnknown(Aggregate(o, a, conv).value, x, conv);
    AggregateStopsAtFirstError(o, a, x, b, conv);
  }

  /** `examples` has no attribute, so the loop never changes it. */
  lemma {:induction false} ExamplesUntouched(o: Options, attrs: seq<Attribute>, conv: Converters)
    requires Runs(o, attrs, conv)
    requires Aggregate(o, attrs, conv).Ok?
    ensures Aggregate(o, attrs, conv).value.examples == o.examples
    decreases |attrs|
  {
    if |attrs| > 0 {
      var x := attrs[0];
      var o1 := Step(o, x, conv).value;
      if AttrKey(x).Some? {
        KeyOfIsKeyName(ParseValues(x).value.name.text, AttrKey(x).value);
      }
      assert Project(o1, Examples) == Project(o, Examples);
      ExamplesUntouched(o1, attrs[1..], conv);
    }
  }

  /** An assigned field that only the first attribute addresses ends up
      holding that attribute's conversion. */
  lemma WriteAtHeadWins(o: Options, attrs: seq<Attribute>, conv: Converters)
    requires Runs(o, attrs, conv)
    requires |attrs| > 0 && AttrKey(attrs[0]).Some? && AssignedByOptionList(AttrKey(attrs[0]).value)
    requires Unaddressed(attrs[1..], AttrKey(attrs[0]).value)
    requires Aggregate(o, attrs, conv).Ok?
    ensures var k := AttrKey(attrs[0]).value;
            Convert(conv, k, ParseValues(attrs[0]).value) == Ok(Project(Aggregate(o, attrs, conv).value, k))
  {
    var o1 := Step(o, attrs[0], conv).value;
    assert Aggregate(o, attrs, conv) == Aggregate(o1, attrs[1..], conv);
    StepAssigns(o, attrs[0], conv);
  }

  /** The last attribute addressing an assigned field decides its value:
      a repeated attribute overwrites the earlier ones. */
  lemma {:induction false} LastWriteWins(o: Options, attrs: seq<Attribute>, conv: Converters, j: nat)
    requires Runs(o, attrs, conv)
    requires j < |attrs| && AttrKey(attrs[j]).Some? && AssignedByOptionList(AttrKey(attrs[j]).value)
    requires Unaddressed(attrs[j + 1..], AttrKey(attrs[j]).value)
    ensures var k := AttrKey(attrs[j]).value;
            Aggregate(o, attrs, conv).Ok? ==>
              Convert(conv, k, ParseValues(attrs[j]).value)
                == Ok(Project(Aggregate(o, attrs, conv).value, k))
    decreases j
  {
    if Aggregate(o, attrs, conv).Err? {
      return;
    }
    var rest := attrs[1..];
    var o1 := Step(o, attrs[0], conv).value;
    assert Aggregate(o, attrs, conv) == Aggregate(o1, rest, conv);
    if j == 0 {
      WriteAtHeadWins(o, attrs, conv);
    } else {
      assert rest[j - 1] == attrs[j];
      assert rest[j..] == attrs[j + 1..];
      LastWriteWins(o1, rest, conv, j - 1);
    }
  }

  /** The description line an attribute contributes, if it is a readable
      `description` attribute. */
  function DescriptionLine(attr: Attribute): seq<string>
    requires NoPanic(attr)
  {
    match ParseValues(attr)
    case Ok(v) =>
      if v.name.text == "description" && ParseString(v).Ok? then [ParseString(v).value] else []
    case Err(_) => []
  }

  /** The description lines of a list of attributes, in source order. */
  function DescriptionLines(attrs: seq<Attribute>): seq<string>
    requires AllNoPanic(attrs)
    decreases |attrs|
  {
    if |attrs| == 0 then [] else DescriptionLine(attrs[0]) + DescriptionLines(attrs[1..])
  }

  lemma {:induction false} AppendLinesSplit(d: AsOption<string>, a: seq<string>, b: seq<string>)
    ensures AppendLines(d, a + b) == AppendLines(AppendLines(d, a), b)
    decreases |a|
  {
    if |a| == 0 {
      assert a + b == b;
    } else {
      assert (a + b)[0] == a[0];
      assert (a + b)[1..] == a[1..] + b;
      AppendLinesSplit(AppendLine(d, a[0]), a[1..], b);
    }
  }

  /** How one attribute's step moves the description: by its description
      line, if it has one, and not at all otherwise. */
  lemma StepDescription(o: Options, x: Attribute, conv: Converters)
    requires NoPanic(x)
    requires Step(o, x, conv).Ok?
    ensures Step(o, x, conv).value.description == AppendLines(o.description, DescriptionLine(x))
  {
    var o1 := Step(o, x, conv).value;
    var v := ParseValues(x).value;
    KeyOfIsKeyName(v.name.text, Description);
    if AttrKey(x) == Some(Description) {
      StepFoldsDescription(o, x, conv);
      assert DescriptionLine(x) == [ParseString(v).value];
      assert [ParseString(v).value][1..] == [];
    } else {
      assert DescriptionLine(x) == [];
      assert Project(o1, Description) == Project(o, Description);
    }
  }

  /** Description attributes accumulate: the final description is the old
      one with every description line folded in, in source order, whatever
      other attributes sit between them. */
  lemma {:induction false} DescriptionAccumulates(o: Options, attrs: seq<Attribute>, conv: Converters)
    requires Runs(o, attrs, conv)
    requires Aggregate(o, attrs, conv).Ok?
    ensures Aggregate(o, attrs, conv).value.description
         == AppendLines(o.description, DescriptionLines(attrs))
    decreases |attrs|
  {
    if |attrs| > 0 {
      var x := attrs[0];
      var rest := attrs[1..];
      var o1 := Step(o, x, conv).value;
      assert Aggregate(o, attrs, conv) == Aggregate(o1, rest, conv);
      DescriptionAccumulates(o1, rest, conv);
      StepDescription(o, x, conv);
      assert DescriptionLines(attrs) == DescriptionLine(x) + DescriptionLines(rest);
      AppendLinesSplit(o.description, DescriptionLine(x), DescriptionLines(rest));
    }
  }

  /** The macro */

  /** The macro's own argument: empty, a literal, or tokens that are not a
      literal. */
  datatype MacroArg = NoArg | LitArg(lit: Lit) | NotALiteral(error: Error)

  /** The outcome of the macro: the parsed declaration, the command name and
      the descriptor. */
  datatype Command = Command(fun: CommandFun, name: string, options: Options)

  /** The command name: the literal's text when the macro has an argument,
      otherwise the function's name without its raw prefix. */
  function CommandName(arg: MacroArg, fnName: Ident): (r: Result<string>)
    requires arg.LitArg? ==> IsText(arg.lit)
    ensures arg.LitArg? ==> r == Ok(LitToStr(arg.lit))
    ensures arg.NotALiteral? ==> r == Err(arg.error)
    ensures arg.NoArg? ==> r.Ok? && !StartsWith(r.value, "r#")
                           && exists k :: fnName.text == RawPrefixes(k) + r.value
  {
    match arg
    case LitArg(lit) => Ok(LitToStr(lit))
    case NotALiteral(e) => Err(e)
    case NoArg => Ok(ToStringNonRaw(fnName))
  }

  /** The macro reaches no panic: once the declaration has parsed, a
      literal argument is text and the attribute loop reaches no attribute
      whose conversion panics. */
  predicate CommandRuns(arg: MacroArg, d: Declaration, conv: Converters) {
    ParseCommandFun(d).Ok? ==>
      (arg.LitArg? ==> IsText(arg.lit))
      && (!arg.NotALiteral? ==> Runs(NewOptions(), ParseCommandFun(d).value.attributes, conv))
  }

  /** `application_command`: parse the declaration, choose the name, then
      fold the recognised attributes, in source order, into a descriptor
      that starts as `Options::new()`.  The first failing step's error is
      the macro's result; a literal argument and the attributes are only
      looked at once the declaration has parsed. */
  function ApplicationCommand(arg: MacroArg, d: Declaration, conv: Converters): (r: Result<Command>)
    requires CommandRuns(arg, d, conv)
    ensures ParseCommandFun(d).Err? ==> r == Err(ParseCommandFun(d).error)
    ensures ParseCommandFun(d).Ok? && arg.NotALiteral? ==> r == Err(arg.error)
    ensures var p := ParseCommandFun(d);
            p.Ok? && !arg.NotALiteral? && Aggregate(NewOptions(), p.value.attributes, conv).Err? ==>
              r == Err(Aggregate(NewOptions(), p.value.attributes, conv).error)
    ensures r.Ok? ==> ParseCommandFun(d) == Ok(r.value.fun)
    ensures r.Ok? ==> CommandName(arg, r.value.fun.name) == Ok(r.value.name)
    ensures r.Ok? ==> AllNoPanic(r.value.fun.attributes)
                      && Aggregate(NewOptions(), r.value.fun.attributes, conv) == Ok(r.value.options)
    ensures r.Ok? ==> forall a :: a in r.value.fun.attributes ==> !IsCooked(a)
    ensures r.Ok? ==> r.value.options.examples == []
    ensures r.Ok? ==> r.value.options.description
                      == AppendLines(Option.None, DescriptionLines(r.value.fun.attributes))
  {
    var fun :- ParseCommandFun(d);
    var name :- CommandName(arg, fun.name);
    var renamed := RenamedAttributes(d.attributes.value);
    FilterSound(IsRecognised, renamed);
    var options :- Aggregate(NewOptions(), fun.attributes, conv);
    ExamplesUntouched(NewOptions(), fun.attributes, conv);
    DescriptionAccumulates(NewOptions(), fun.attributes, conv);
    Ok(Command(fun, name, options))
  }

  /** A field that no recognised attribute of the command addresses keeps
      its `Options::new()` value in the macro's descriptor. */
  lemma CommandKeepsDefaults(arg: MacroArg, d: Declaration, conv: Converters, k: Key)
    requires CommandRuns(arg, d, conv)
    requires ApplicationCommand(arg, d, conv).Ok?
    requires Unaddressed(ApplicationCommand(arg, d, conv).value.fun.attributes, k)
    ensures Project(ApplicationCommand(arg, d, conv).value.options, k) == Project(NewOptions(), k)
  {
    var c := ApplicationCommand(arg, d, conv).value;
    assert Aggregate(NewOptions(), c.fun.attributes, conv) == Ok(c.options);
  }

  /** An option field of the macro's descriptor holds the conversion of the
      last recognised attribute that names it. */
  lemma CommandLastWriteWins(arg: MacroArg, d: Declaration, conv: Converters, j: nat)
    requires CommandRuns(arg, d, conv)
    ensures var r := ApplicationCommand(arg, d, conv);
            r.Ok? && j < |r.value.fun.attributes|
            && AttrKey(r.value.fun.attributes[j]).Some? && AssignedByOptionList(AttrKey(r.value.fun.attributes[j]).value)
            && Unaddressed(r.value.fun.attributes[j + 1..], AttrKey(r.value.fun.attributes[j]).value) ==>
              var k := AttrKey(r.value.fun.attributes[j]).value;
              Convert(conv, k, ParseValues(r.value.fun.attributes[j]).value) == Ok(Project(r.value.options, k))
  {
    var r := ApplicationCommand(arg, d, conv);
    if r.Ok? && j < |r.value.fun.attributes| && AttrKey(r.value.fun.attributes[j]).Some?
       && AssignedByOptionList(AttrKey(r.value.fun.attributes[j]).value)
       && Unaddressed(r.value.fun.attributes[j + 1..], AttrKey(r.value.fun.attributes[j]).value)
    {
      LastWriteWins(NewOptions(), r.value.fun.attributes, conv, j);
    }
  }

  /** After recognised attributes that all succeed, an attribute with an
      unknown name makes the macro fail with `invalid attribute` at that
      attribute, whatever follows it. */
  lemma CommandRejectsUnknown(arg: MacroArg, d: Declaration, conv: Converters,
                              a: seq<Attribute>, x: Attribute, b: seq<Attribute>)
    requires ParseCommandFun(d).Ok? && !arg.NotALiteral?
    requires arg.LitArg? ==> IsText(arg.lit)
    requires ParseCommandFun(d).value.attributes == a + [x] + b
    requires Runs(NewOptions(), a, conv)
    requires ParseValues(x).Ok? && KeyOf(ParseValues(x).value.name.text).None?
    requires Aggregate(NewOptions(), a, conv).Ok?
    ensures CommandRuns(arg, d, conv)
    ensures ApplicationCommand(arg, d, conv)
         == Err(Error(x.span, InvalidAttributeMessage(ParseValues(x).value.name.text)))
  {
    UnknownAttributeRejected(NewOptions(), a, x, b, conv);
  }

  /** The dispatch knows none of the cooked names, nor `doc`. */
  lemma CookedNamesUnknown(name: string)
    requires name in CookedAttributeNames || name == "doc"
    ensures KeyOf(name).None?
  {
  }

  /** A path with a leading `::` is never an identifier for `is_ident`, but
      `to_ident` reads its last segment all the same: `#[::cfg]` is not
      passed through as cooked, `#[::doc]` is not renamed, and a name the
      dispatch does not know (every cooked name among them) fails the loop
      as an invalid attribute (`CookedNamesUnknown`). */
  lemma LeadingColonMisread(o: Options, conv: Converters, name: string, at: Span, pathSpan: Span, span: Span)
    ensures var attr := Attribute(Path(true, [PathSegment(Ident(name, at), false)], pathSpan), Bare, span);
            && !IsCooked(attr)
            && RenameAttributes([attr], name, "description") == [attr]
            && ParseValues(attr) == Ok(Values(Ident(name, at), Name, [], span))
    ensures var attr := Attribute(Path(true, [PathSegment(Ident(name, at), false)], pathSpan), Bare, span);
            KeyOf(name).None? ==> NoPanic(attr) && Step(o, attr, conv) == Err(Error(span, InvalidAttributeMessage(name)))
  {
    var attr := Attribute(Path(true, [PathSegment(Ident(name, at), false)], pathSpan), Bare, span);
    if KeyOf(name).None? {
      KeyOfIsKeyName(name, Description);
      StepRejectsUnknown(o, attr, conv);
    }
  }
}

=== FILE: seqs.dfy ===
/** Order-preserving selection from a sequence, the reference definition
    against which the partition of a declaration's annotations is stated. */
module Seqs {

  /** The elements of `s` that satisfy `p`, in their original order. */
  function Filter<T>(p: T -> bool, s: seq<T>): (r: seq<T>)
    ensures |r| <= |s|
  {
    if |s| == 0 then []
    else Filter(p, s[..|s| - 1]) + (if p(s[|s| - 1]) then [s[|s| - 1]] else [])
  }

  /** Everything selected comes from `s` and satisfies `p`. */
  lemma {:induction false} FilterSound<T>(p: T -> bool, s: seq<T>)
    ensures forall i :: 0 <= i < |Filter(p, s)| ==> Filter(p, s)[i] in s && p(Filter(p, s)[i])
  {
    if |s| > 0 {
      FilterSound(p, s[..|s| - 1]);
    }
  }

  /** Selecting from `s` extended by one element extends the selection by
      that element exactly when it satisfies `p`. */
  lemma FilterSnoc<T>(p: T -> bool, s: seq<T>, x: T)
    ensures p(x) ==> Filter(p, s + [x]) == Filter(p, s) + [x]
    ensures !p(x) ==> Filter(p, s + [x]) == Filter(p, s)
  {
    assert (s + [x])[..|s|] == s;
  }

  /** Appending one element to either side of a split keeps it a split of
      the extended sequence. */
  lemma SplitSnoc<T>(a: seq<T>, b: seq<T>, s: seq<T>, x: T)
    requires multiset(a) + multiset(b) == multiset(s)
    ensures multiset(a + [x]) + multiset(b) == multiset(s + [x])
    ensures multiset(a) + multiset(b + [x]) == multiset(s + [x])
  {
    assert multiset(a + [x]) == multiset(a) + multiset{x};
    assert multiset(b + [x]) == multiset(b) + multiset{x};
    assert multiset(s + [x]) == multiset(s) + multiset{x};
  }

  /** Every element of `s` lands in exactly one of the two selections. */
  lemma {:induction false} FilterPartition<T>(p: T -> bool, q: T -> bool, s: seq<T>)
    requires forall x :: q(x) == !p(x)
    ensures multiset(Filter(p, s)) + multiset(Filter(q, s)) == multiset(s)
    ensures |Filter(p, s)| + |Filter(q, s)| == |s|
  {
    if |s| > 0 {
      var s' := s[..|s| - 1];
      var x := s[|s| - 1];
      FilterPartition(p, q, s');
      assert s == s' + [x];
      FilterSnoc(p, s', x);
      FilterSnoc(q, s', x);
      assert q(x) == !p(x);
      SplitSnoc(Filter(p, s'), Filter(q, s'), s', x);
    }
    assert |multiset(Filter(p, s)) + multiset(Filter(q, s))| == |multiset(s)|;
  }
}

=== FILE: structures.dfy ===
/** The parsed command declaration and the descriptor its attributes fold
    into: separating pass-through ("cooked") attributes from the ones this
    crate interprets, turning parameters into `Argument`s, the ordered
    guards of the declaration parser, and the restriction and permission
    option types. */
module Structures {

  import opened Diagnostics
  import opened Syntax
  import opened Text
  import opened Seqs
  import opened Util

  /** Cooked attributes */

  /** Attributes that belong to the compiler and pass through untouched. */
  const CookedAttributeNames: seq<string> :=
    ["cfg", "cfg_attr", "derive", "inline", "allow", "warn", "deny", "forbid"]

  /** `is_cooked`: the attribute's path is one of the cooked names. */
  function IsCooked(attr: Attribute): (r: bool)
    ensures r <==> && !attr.path.leadingColon
                   && |attr.path.segments| == 1
                   && !attr.path.segments[0].hasArgs
                   && attr.path.segments[0].ident.text in
                        {"cfg", "cfg_attr", "derive", "inline", "allow", "warn", "deny", "forbid"}
  {
    var names := CookedAttributeNames;
    assert attr.path.IsIdent("cfg") ==> attr.path.IsIdent(names[0]);
    assert attr.path.IsIdent("cfg_attr") ==> attr.path.IsIdent(names[1]);
    assert attr.path.IsIdent("derive") ==> attr.path.IsIdent(names[2]);
    assert attr.path.IsIdent("inline") ==> attr.path.IsIdent(names[3]);
    assert attr.path.IsIdent("allow") ==> attr.path.IsIdent(names[4]);
    assert attr.path.IsIdent("warn") ==> attr.path.IsIdent(names[5]);
    assert attr.path.IsIdent("deny") ==> attr.path.IsIdent(names[6]);
    assert attr.path.IsIdent("forbid") ==> attr.path.IsIdent(names[7]);
    exists i :: 0 <= i < |names| && attr.path.IsIdent(names[i])
  }

  /** An attribute this crate interprets itself. */
  function IsRecognised(attr: Attribute): bool {
    !IsCooked(attr)
  }

  /** `remove_cooked`: walks the list, moving each cooked attribute out of it
      into `cooked`.  What stays behind (`kept`) and what is moved out
      partition the input, each group in its original order. */
  method RemoveCooked(attrs: seq<Attribute>) returns (kept: seq<Attribute>, cooked: seq<Attribute>)
    ensures kept == Filter(IsRecognised, attrs)
    ensures cooked == Filter(IsCooked, attrs)
  {
    kept := attrs;
    cooked := [];
    var i := 0;
    ghost var n := 0;
    while i < |kept|
      invariant 0 <= i <= |kept| && 0 <= n <= |attrs|
      invariant |kept| - i == |attrs| - n
      invariant kept[..i] == Filter(IsRecognised, attrs[..n])
      invariant kept[i..] == attrs[n..]
      invariant cooked == Filter(IsCooked, attrs[..n])
      decreases |kept| - i
    {
      var x := kept[i];
      assert x == attrs[n] by { assert kept[i..][0] == attrs[n..][0]; }
      assert attrs[..n + 1] == attrs[..n] + [x];
      FilterSnoc(IsRecognised, attrs[..n], x);
      FilterSnoc(IsCooked, attrs[..n], x);
      if !IsCooked(x) {
        assert kept[..i + 1] == kept[..i] + [x];
        assert kept[i + 1..] == attrs[n + 1..] by { assert kept[i + 1..] == kept[i..][1..]; }
        i := i + 1;
        n := n + 1;
        continue;
      }
      cooked := cooked + [x];
      assert kept[i + 1..] == attrs[n + 1..] by { assert kept[i + 1..] == kept[i..][1..]; }
      kept := kept[..i] + kept[i + 1..];
      assert kept[..i] == Filter(IsRecognised, attrs[..n]);
      n := n + 1;
    }
    assert attrs[..n] == attrs;
  }

  /** The two groups `RemoveCooked` returns split the input: each holds only
      its own kind, and together they are a permutation of it. */
  lemma CookedSplit(attrs: seq<Attribute>)
    ensures var kept, cooked := Filter(IsRecognised, attrs), Filter(IsCooked, attrs);
            && (forall i :: 0 <= i < |kept| ==> !IsCooked(kept[i]))
            && (forall i :: 0 <= i < |cooked| ==> IsCooked(cooked[i]))
            && |kept| + |cooked| == |attrs|
            && multiset(kept) + multiset(cooked) == multiset(attrs)
  {
    FilterSound(IsRecognised, attrs);
    FilterSound(IsCooked, attrs);
    FilterPartition(IsRecognised, IsCooked, attrs);
  }

  /** Parameters */

  /** A command parameter: optional `mut`, a name, and a type. */
  datatype Argument = Argument(mutable: bool, name: Ident, kind: Type)

  /** `parse_argument`: a typed named parameter keeps its name, mutability
      and type; a typed `_` gets the name `_` at the underscore and is never
      mutable; any other pattern, and a bare `self` receiver, is rejected. */
  function ParseArgument(arg: FnArg): (r: Result<Argument>)
    ensures arg.Typed? && arg.pat.IdentPat? ==>
              r == Ok(Argument(arg.pat.mutable, arg.pat.ident, arg.ty))
    ensures arg.Typed? && arg.pat.WildPat? ==>
              r == Ok(Argument(false, Ident("_", arg.pat.underscore), arg.ty))
    ensures arg.Typed? && arg.pat.OtherPat? ==>
              r == Err(Error(arg.pat.span, "unsupported pattern: " + arg.pat.debug))
    ensures arg.Receiver? ==>
              r == Err(Error(arg.span, "`self` argument are prohibited: " + arg.debug))
  {
    match arg
    case Typed(pat, ty) =>
      (match pat
       case IdentPat(mutable, ident) => Ok(Argument(mutable, ident, ty))
       case WildPat(underscore) => Ok(Argument(false, Ident("_", underscore), ty))
       case OtherPat(debug, span) => Err(Error(span, "unsupported pattern: " + debug)))
    case Receiver(debug, span) => Err(Error(span, "`self` argument are prohibited: " + debug))
  }

  /** Declarations */

  /** A command declaration as the parser library reads it, piece by piece:
      `#[attrs] vis async fn name(params) -> ret { body }`.  Each piece is
      the outcome of reading it from the tokens. */
  datatype Declaration = Declaration(
    attributes: Result<seq<Attribute>>,
    visibility: Result<Visibility>,
    asyncToken: Result<Span>,
    fnToken: Result<Span>,
    name: Result<Ident>,
    params: Result<seq<FnArg>>,
    output: Result<ReturnType>,
    body: Result<seq<Stmt>>)

  /** `CommandFun`: a parsed command declaration. */
  datatype CommandFun = CommandFun(
    attributes: seq<Attribute>,
    cooked: seq<Attribute>,
    visibility: Visibility,
    name: Ident,
    args: seq<Argument>,
    ret: Type,
    body: seq<Stmt>)

  const ReturnTypeMessage: string :=
    "excepeted a result type of either `CommandResult` or `CheckResult`"

  /** Every piece before the return type was read. */
  predicate SignatureRead(d: Declaration) {
    d.attributes.Ok? && d.visibility.Ok? && d.asyncToken.Ok? && d.fnToken.Ok?
    && d.name.Ok? && d.params.Ok?
  }

  /** Doc comments renamed to `description`. */
  function RenamedAttributes(attrs: seq<Attribute>): seq<Attribute> {
    RenameAttributes(attrs, "doc", "description")
  }

  /** `CommandFun::parse`, in the source's order: read the attributes,
      rename `doc` to `description`, split off the cooked attributes, read
      visibility, `async`, `fn`, the name and the parameters, demand a
      return type, read the body, and only then convert the parameters,
      stopping at the first one that fails. */
  function ParseCommandFun(d: Declaration): (r: Result<CommandFun>)
    ensures r.Ok? ==> SignatureRead(d) && d.output == Ok(Returns(r.value.ret)) && d.body.Ok?
    ensures r.Ok? ==> r.value.attributes == Filter(IsRecognised, RenamedAttributes(d.attributes.value))
    ensures r.Ok? ==> r.value.cooked == Filter(IsCooked, RenamedAttributes(d.attributes.value))
    ensures r.Ok? ==> |r.value.args| == |d.params.value|
                      && forall i :: 0 <= i < |d.params.value| ==>
                           ParseArgument(d.params.value[i]) == Ok(r.value.args[i])
    ensures r.Ok? ==> r.value.visibility == d.visibility.value && r.value.name == d.name.value
                      && r.value.body == d.body.value
    ensures d.attributes.Err? ==> r == Err(d.attributes.error)
    ensures d.attributes.Ok? && d.visibility.Err? ==> r == Err(d.visibility.error)
    ensures d.attributes.Ok? && d.visibility.Ok? && d.asyncToken.Err? ==> r == Err(d.asyncToken.error)
    ensures d.attributes.Ok? && d.visibility.Ok? && d.asyncToken.Ok? && d.fnToken.Err? ==>
              r == Err(d.fnToken.error)
    ensures d.attributes.Ok? && d.visibility.Ok? && d.asyncToken.Ok? && d.fnToken.Ok? && d.name.Err? ==>
              r == Err(d.name.error)
    ensures d.attributes.Ok? && d.visibility.Ok? && d.asyncToken.Ok? && d.fnToken.Ok? && d.name.Ok? && d.params.Err? ==>
              r == Err(d.params.error)
    ensures SignatureRead(d) && d.output.Err? ==> r == Err(d.output.error)
    ensures SignatureRead(d) && d.output.Ok? && d.output.value.Default? ==>
              r == Err(Error(d.output.value.at, ReturnTypeMessage))
    ensures SignatureRead(d) && d.output.Ok? && d.output.value.Returns? && d.body.Err? ==>
              r == Err(d.body.error)
    ensures SignatureRead(d) && d.output.Ok? && d.output.value.Returns? && d.body.Ok? ==>
              (r.Ok? <==> forall i :: 0 <= i < |d.params.value| ==> ParseArgument(d.params.value[i]).Ok?)
    ensures SignatureRead(d) && d.output.Ok? && d.output.value.Returns? && d.body.Ok? && r.Err? ==>
              exists k :: 0 <= k < |d.params.value| && ParseArgument(d.params.value[k]) == Err(r.error)
                          && forall i :: 0 <= i < k ==> ParseArgument(d.params.value[i]).Ok?
  {
    var attrs :- d.attributes;
    var renamed := RenamedAttributes(attrs);
    var attributes := Filter(IsRecognised, renamed);
    var cooked := Filter(IsCooked, renamed);
    var visibility :- d.visibility;
    var _ :- d.asyncToken;
    var _ :- d.fnToken;
    var name :- d.name;
    var params :- d.params;
    var output :- d.output;
    var ret :- match output
               case Default(at) => Err(Error(at, ReturnTypeMessage))
               case Returns(ty) => Ok(ty);
    var body :- d.body;
    var args :- Traverse(ParseArgument, params);
    Ok(CommandFun(attributes, cooked, visibility, name, args, ret, body))
  }

  /** The two attribute groups of a parsed declaration partition the renamed
      attributes, and no doc attribute is left in either. */
  lemma ParsedAttributesPartition(d: Declaration)
    requires ParseCommandFun(d).Ok?
    ensures var f := ParseCommandFun(d).value;
            var renamed := RenamedAttributes(d.attributes.value);
            && |f.attributes| + |f.cooked| == |renamed|
            && multiset(f.attributes) + multiset(f.cooked) == multiset(renamed)
            && (forall i :: 0 <= i < |f.attributes| ==> !IsCooked(f.attributes[i]))
            && (forall i :: 0 <= i < |f.cooked| ==> IsCooked(f.cooked[i]))
            && (forall a :: a in f.attributes ==> !a.path.IsIdent("doc"))
            && (forall a :: a in f.cooked ==> !a.path.IsIdent("doc"))
  {
    var renamed := RenamedAttributes(d.attributes.value);
    FilterPartition(IsRecognised, IsCooked, renamed);
    FilterSound(IsRecognised, renamed);
    FilterSound(IsCooked, renamed);
    RenameRemovesName(d.attributes.value, "doc", "description");
  }

  /** A bare `self` receiver anywhere in the parameters makes a declaration
      fail, whatever the other parameters are. */
  lemma ReceiverRejected(d: Declaration, k: nat)
    requires d.params.Ok? && k < |d.params.value| && d.params.value[k].Receiver?
    ensures ParseCommandFun(d).Err?
  {
    assert ParseArgument(d.params.value[k]).Err?;
  }

  /** Permissions */

  /** A permission bit set. */
  datatype Permissions = Permissions(bits: u64)

  /** `Permissions::from_str`: the upper-cased name would select a preset,
      but no preset is defined, so every name is refused. */
  function PermissionsFromStr(s: string): (r: Option<Permissions>)
    ensures r == Option.None
  {
    var upper := ToUpperAscii(s);
    match upper
    case _ => Option.None
  }

  /** Restrictions */

  /** Where a command may run. */
  datatype OnlyIn = Global | Guild(id: u64) | None

  /** `OnlyIn::default()` */
  const DefaultOnlyIn: OnlyIn := OnlyIn.None

  /** `OnlyIn::default` stands for "no restriction": it is `None`, and the
      corrected restriction parser never produces it, so a parsed
      restriction is never mistaken for the default. */
  lemma DefaultRestrictionNeverParsed(s: string, span: Span)
    ensures DefaultOnlyIn.None?
    ensures OnlyInFromStrIntended(s, span) != Ok(DefaultOnlyIn)
  {
  }

  const RestrictionMessage: string := "invailid restriction type"
  const UnterminatedMessage: string := "invailid restriction type (must end `)`)"
  const GuildIdMessage: string := "invailid restriction type (must u64)"

  /** `OnlyIn::from_str` as written: it compares a five-character head with
      the six-character words `global` and `guild(`, so neither arm can
      match and every text is refused. */
  function OnlyInFromStr(s: string, span: Span): (r: Result<OnlyIn>)
    ensures r == Err(Error(span, RestrictionMessage))
  {
    if |s| < 6 then Err(Error(span, RestrictionMessage))
    else
      var head := s[0..5];
      if head == "global" then Ok(Global)
      else if head == "guild(" then GuildFromStr(s, span)
      else Err(Error(span, RestrictionMessage))
  }

  /** The text between `guild(` and the closing `)`. */
  function GuildIdText(s: string): string {
    if |s| >= 7 then s[6..|s| - 1] else ""
  }

  /** The `guild(...)` arm, for a text that starts with `guild(`: the text
      must end in `)` and hold a 64-bit decimal id between the parentheses. */
  function GuildFromStr(s: string, span: Span): (r: Result<OnlyIn>)
    ensures r.Ok? ==> r.value.Guild?
    ensures !(|s| > 0 && s[|s| - 1] == ')') ==> r == Err(Error(span, UnterminatedMessage))
    ensures StartsWith(s, "guild(") && |s| > 0 && s[|s| - 1] == ')' ==>
              match ParseU64(s[6..|s| - 1])
              case Some(id) => r == Ok(Guild(id))
              case None => r == Err(Error(span, GuildIdMessage))
  {
    if !(|s| > 0 && s[|s| - 1] == ')') then Err(Error(span, UnterminatedMessage))
    else
      match ParseU64(GuildIdText(s))
      case Some(id) => Ok(Guild(id))
      case None => Err(Error(span, GuildIdMessage))
  }

  /** `OnlyIn::from_str` with the six-character head its arms evidently
      expect. */
  function OnlyInFromStrIntended(s: string, span: Span): (r: Result<OnlyIn>)
    ensures |s| < 6 ==> r == Err(Error(span, RestrictionMessage))
    ensures r.Ok? ==> !r.value.None?
    ensures r.Ok? && r.value.Global? <==> |s| >= 6 && s[..6] == "global"
  {
    if |s| < 6 then Err(Error(span, RestrictionMessage))
    else
      var head := s[0..6];
      if head == "global" then Ok(Global)
      else if head == "guild(" then GuildFromStr(s, span)
      else Err(Error(span, RestrictionMessage))
  }

  /** The restriction texts the corrected parser reads: `global`, and
      `guild(` + a 64-bit id in decimal + `)`, which gives that id back. */
  lemma {:induction false} IntendedRestrictionRoundTrip(id: u64, span: Span)
    ensures OnlyInFromStrIntended("global", span) == Ok(Global)
    ensures OnlyInFromStrIntended("guild(" + NatToString(id) + ")", span) == Ok(Guild(id))
  {
    var s := "guild(" + NatToString(id) + ")";
    assert s[0..6] == "guild(";
    assert s[6..|s| - 1] == NatToString(id);
    ParseU64OfNatToString(id);
  }

  /** An unterminated id and a misspelt keyword are both refused. */
  lemma IntendedRestrictionRejects(span: Span)
    ensures OnlyInFromStrIntended("guild(123", span) == Err(Error(span, UnterminatedMessage))
    ensures OnlyInFromStrIntended("guilt(1)", span) == Err(Error(span, RestrictionMessage))
  {
    assert "guild(123"[0..6] == "guild(";
    assert "guilt(1)"[0..6] != "guild(" by {
      assert "guilt(1)"[4] == 't';
    }
  }

  /** The discrepancy: the one text the restriction grammar is built around
      is refused as written and accepted once the head has six characters. */
  lemma GlobalRefusedAsWritten(span: Span)
    ensures OnlyInFromStr("global", span).Err?
    ensures OnlyInFromStrIntended("global", span) == Ok(Global)
  {
    IntendedRestrictionRoundTrip(0, span);
  }

  /** Options */

  /** `Options`: the descriptor the attributes of one command fold into. */
  datatype Options = Options(
    checks: seq<Ident>,
    bucket: AsOption<string>,
    aliases: seq<string>,
    description: AsOption<string>,
    delimiters: seq<string>,
    usage: AsOption<string>,
    examples: seq<string>,
    allowedRoles: seq<string>,
    requiredPermissions: Permissions,
    helpAvailable: bool,
    onlyIn: seq<OnlyIn>,
    ownersOnly: bool,
    ownerPrivilege: bool,
    subCommands: seq<Ident>)

  /** `Options::new()`: help is available; every other field is empty,
      absent, false or zero. */
  function NewOptions(): (o: Options)
    ensures o.helpAvailable
    ensures o.checks == [] && o.aliases == [] && o.delimiters == [] && o.examples == []
    ensures o.allowedRoles == [] && o.onlyIn == [] && o.subCommands == []
    ensures o.bucket.None? && o.description.None? && o.usage.None?
    ensures o.requiredPermissions.bits == 0
    ensures !o.ownersOnly && !o.ownerPrivilege
  {
    Options([], Option.None, [], Option.None, [], Option.None, [], [], Permissions(0),
            true, [], false, false, [])
  }
}

=== FILE: syntax.dfy ===
/** The already-parsed syntax the macro front end receives from its parser
    library: identifiers, paths, literals, attribute meta items and function
    parameters.  Token streams are not modelled; where the parser library
    could fail on raw tokens, the value carries that failure as an `Error`. */
module Syntax {

  import opened Diagnostics

  /** An identifier token.  `text` is its `to_string()` rendering, so a raw
      identifier keeps its `r#` prefix. */
  datatype Ident = Ident(text: string, span: Span)

  /** One segment of a path: an identifier, possibly followed by angle-bracket
      or parenthesised arguments (`Vec<T>`, `Fn(A)`). */
  datatype PathSegment = PathSegment(ident: Ident, hasArgs: bool)

  /** A path such as `serde::Serialize` or `::cfg`; `leadingColon` records
      a leading `::`. */
  datatype Path = Path(leadingColon: bool, segments: seq<PathSegment>, span: Span) {

    /** `Path::is_ident(name)`: no leading `::`, exactly one segment, without
        arguments, whose identifier is `name`. */
    predicate IsIdent(name: string) {
      !leadingColon && |segments| == 1 && !segments[0].hasArgs && segments[0].ident.text == name
    }
  }

  /** The one-segment path naming `ident` (`Path::from(PathSegment::from(ident))`). */
  function PathOf(ident: Ident): (p: Path)
    ensures p.IsIdent(ident.text)
  {
    Path(false, [PathSegment(ident, false)], ident.span)
  }

  type byte = b: int | 0 <= b < 256

  /** A literal.  A byte string carries its text already decoded; `Other`
      stands for integer, float and verbatim literals. */
  datatype Lit =
    | Str(text: string, span: Span)
    | ByteStr(text: string, span: Span)
    | Char(ch: char, span: Span)
    | Byte(b: byte, span: Span)
    | Bool(flag: bool, span: Span)
    | Other(span: Span)

  /** The structured content of an attribute:
      `#[path]`, `#[path(nested, ...)]` or `#[path = lit]`. */
  datatype Meta =
    | PathMeta(path: Path)
    | ListMeta(path: Path, nested: seq<NestedMeta>)
    | NameValueMeta(path: Path, lit: Lit)

  /** An element of a parenthesised attribute list. */
  datatype NestedMeta = NestedLit(lit: Lit) | NestedItem(meta: Meta)

  /** What follows an attribute's path, as the parser library reads its
      tokens; `Malformed` is a token sequence it cannot read as a meta item. */
  datatype AttrInput =
    | Bare
    | Parenthesized(nested: seq<NestedMeta>)
    | Assigned(lit: Lit)
    | Malformed(error: Error)

  /** An outer attribute `#[...]`; a `///` doc comment arrives as the
      attribute `#[doc = "..."]`. */
  datatype Attribute = Attribute(path: Path, input: AttrInput, span: Span)

  /** `Attribute::parse_meta`: the attribute's current path joined with its
      input. */
  function ParseMeta(attr: Attribute): (r: Result<Meta>)
    ensures r.Ok? <==> !attr.input.Malformed?
    ensures r.Ok? ==> r.value.path == attr.path
  {
    match attr.input
    case Bare => Ok(PathMeta(attr.path))
    case Parenthesized(nested) => Ok(ListMeta(attr.path, nested))
    case Assigned(lit) => Ok(NameValueMeta(attr.path, lit))
    case Malformed(e) => Err(e)
  }

  /** A type, carried through unexamined. */
  datatype Type = Type(tokens: string)

  /** A parameter pattern: `[mut] name`, `_`, or any other pattern, which
      carries its debug rendering. */
  datatype Pat =
    | IdentPat(mutable: bool, ident: Ident)
    | WildPat(underscore: Span)
    | OtherPat(debug: string, span: Span)

  /** A function parameter: `pat: Type`, or a bare receiver `self`,
      `&self`, `&mut self`.  A typed receiver such as `self: Box<Self>`
      is a `Typed` parameter. */
  datatype FnArg =
    | Typed(pat: Pat, ty: Type)
    | Receiver(debug: string, span: Span)

  /** `pub`, `pub(crate)` or nothing, carried through unexamined. */
  datatype Visibility = Visibility(tokens: string)

  /** A statement of a function body, carried through unexamined. */
  datatype Stmt = Stmt(tokens: string)

  /** A function's return type: absent (`Default`, at the position where
      it was expected) or `-> Type`. */
  datatype ReturnType = Default(at: Span) | Returns(ty: Type)
}

=== FILE: text.dfy ===
/** Text helpers standing in for the parts of Rust's `str`, `char` and
    integer parsing that the macro front end relies on.  Text is a sequence
    of Unicode scalar values (`char`); byte offsets and UTF-8 encoding are not
    modelled. */
module Text {

  import opened Diagnostics

  /** `s.starts_with(p)` */
  predicate StartsWith(s: string, p: string) {
    |p| <= |s| && s[..|p|] == p
  }

  /** `char::is_whitespace`: the characters with the Unicode White_Space property. */
  predicate IsWhitespace(c: char) {
    var n := c as int;
    (9 <= n <= 13) || n == 32 || n == 0x85 || n == 0xA0 || n == 0x1680
    || (0x2000 <= n <= 0x200A) || n == 0x2028 || n == 0x2029 || n == 0x202F
    || n == 0x205F || n == 0x3000
  }

  /** `str::trim_end` (see `TrimEndSpec`). */
  function TrimEnd(s: string): (r: string)
    ensures |r| <= |s|
  {
    if |s| > 0 && IsWhitespace(s[|s| - 1]) then TrimEnd(s[..|s| - 1]) else s
  }

  /** Trimming keeps a prefix that does not end in whitespace and drops
      only whitespace. */
  lemma {:induction false} TrimEndSpec(s: string)
    ensures StartsWith(s, TrimEnd(s))
    ensures |TrimEnd(s)| == 0 || !IsWhitespace(TrimEnd(s)[|TrimEnd(s)| - 1])
    ensures forall i :: |TrimEnd(s)| <= i < |s| ==> IsWhitespace(s[i])
  {
    if |s| > 0 && IsWhitespace(s[|s| - 1]) {
      var s' := s[..|s| - 1];
      TrimEndSpec(s');
      assert s'[..|TrimEnd(s')|] == s[..|TrimEnd(s')|];
    }
  }

  /** ASCII-only `char::to_uppercase`. */
  function UpperChar(c: char): char {
    if 'a' <= c <= 'z' then (c as int - 32) as char else c
  }

  /** ASCII-only `str::to_uppercase`. */
  function ToUpperAscii(s: string): (r: string)
    ensures |r| == |s|
    ensures forall i :: 0 <= i < |s| ==> r[i] == UpperChar(s[i])
  {
    seq(|s|, i requires 0 <= i < |s| => UpperChar(s[i]))
  }

  /** The pieces joined with `sep` between neighbours. */
  function Join(pieces: seq<string>, sep: char): string
  {
    if |pieces| == 0 then ""
    else if |pieces| == 1 then pieces[0]
    else pieces[0] + [sep] + Join(pieces[1..], sep)
  }

  /** The maximal runs of `s` between occurrences of `sep` (`str::split`). */
  function Split(s: string, sep: char): (r: seq<string>)
    ensures |r| >= 1
  {
    if |s| == 0 then [""]
    else if s[0] == sep then [""] + Split(s[1..], sep)
    else
      var rest := Split(s[1..], sep);
      [[s[0]] + rest[0]] + rest[1..]
  }

  lemma {:induction false} SplitWithoutSeparator(p: string, sep: char)
    requires sep !in p
    ensures Split(p, sep) == [p]
  {
    if |p| > 0 {
      SplitWithoutSeparator(p[1..], sep);
      assert [p[0]] + p[1..] == p;
    }
  }

  lemma {:induction false} SplitAtSeparator(p: string, q: string, sep: char)
    requires sep !in p
    ensures Split(p + [sep] + q, sep) == [p] + Split(q, sep)
  {
    if |p| == 0 {
      assert p + [sep] + q == [sep] + q;
      assert ([sep] + q)[1..] == q;
    } else {
      var s := p + [sep] + q;
      assert s[1..] == p[1..] + [sep] + q;
      SplitAtSeparator(p[1..], q, sep);
      assert [p[0]] + p[1..] == p;
    }
  }

  /** Splitting a joined text gives the pieces back, provided no piece
      contains the separator. */
  lemma {:induction false} SplitJoin(pieces: seq<string>, sep: char)
    requires |pieces| >= 1
    requires forall i :: 0 <= i < |pieces| ==> sep !in pieces[i]
    ensures Split(Join(pieces, sep), sep) == pieces
  {
    if |pieces| == 1 {
      SplitWithoutSeparator(pieces[0], sep);
    } else {
      SplitJoin(pieces[1..], sep);
      SplitAtSeparator(pieces[0], Join(pieces[1..], sep), sep);
      assert [pieces[0]] + pieces[1..] == pieces;
    }
  }

  /** Decimal numbers. */

  predicate IsDigit(c: char) {
    '0' <= c <= '9'
  }

  predicate AllDigits(s: string) {
    forall i :: 0 <= i < |s| ==> IsDigit(s[i])
  }

  function DigitChar(d: nat): (c: char)
    requires d < 10
    ensures IsDigit(c)
  {
    ('0' as int + d) as char
  }

  function DigitValue(c: char): nat
    requires IsDigit(c)
  {
    c as int - '0' as int
  }

  /** `n.to_string()`: the shortest decimal rendering of `n`. */
  function NatToString(n: nat): (r: string)
    ensures |r| >= 1 && AllDigits(r)
    ensures |r| > 1 ==> r[0] != '0'
  {
    if n < 10 then [DigitChar(n)]
    else NatToString(n / 10) + [DigitChar(n % 10)]
  }

  /** The number a non-empty run of decimal digits denotes. */
  function DigitsValue(s: string): nat
    requires AllDigits(s)
  {
    if |s| == 0 then 0
    else DigitsValue(s[..|s| - 1]) * 10 + DigitValue(s[|s| - 1])
  }

  lemma {:induction false} DigitsValueOfNatToString(n: nat)
    ensures DigitsValue(NatToString(n)) == n
  {
    if n >= 10 {
      var s := NatToString(n);
      assert s[..|s| - 1] == NatToString(n / 10);
      DigitsValueOfNatToString(n / 10);
    }
  }

  const U64_LIMIT: nat := 0x1_0000_0000_0000_0000

  type u64 = n: nat | n < U64_LIMIT

  /** `s.parse::<u64>()`: an optional `+`, then one or more decimal digits,
      denoting a value below 2^64. */
  function ParseU64(s: string): (r: Option<u64>)
    ensures r.Some? ==> |s| >= 1
  {
    if |s| == 0 then None
    else
      var digits := if s[0] == '+' then s[1..] else s;
      if |digits| == 0 || !AllDigits(digits) then None
      else
        var v := DigitsValue(digits);
        if v < U64_LIMIT then Some(v) else None
  }

  /** Parsing the decimal rendering of any 64-bit value gives the value back. */
  lemma ParseU64OfNatToString(n: u64)
    ensures ParseU64(NatToString(n)) == Some(n)
  {
    DigitsValueOfNatToString(n);
  }
}

=== FILE: util.dfy ===
/** Helpers shared by the declaration parser and the option aggregator:
    attribute renaming, literal and identifier conversions, the optional
    wrapper used for text options, and the rule that folds description lines
    into one description. */
module Util {

  import opened Diagnostics
  import opened Syntax
  import opened Text

  /** Attribute renaming */

  /** `rename_attributes`: every attribute whose path is exactly `name` gets
      the one-segment path `target` (a fresh identifier at the call site);
      all other attributes are left alone.  Order and length are kept. */
  function RenameAttributes(attrs: seq<Attribute>, name: string, target: string): (r: seq<Attribute>)
    ensures |r| == |attrs|
    ensures forall i :: 0 <= i < |attrs| && attrs[i].path.IsIdent(name) ==>
              r[i].path == PathOf(Ident(target, CallSite))
              && r[i].input == attrs[i].input && r[i].span == attrs[i].span
    ensures forall i :: 0 <= i < |attrs| && !attrs[i].path.IsIdent(name) ==> r[i] == attrs[i]
  {
    seq(|attrs|, i requires 0 <= i < |attrs| =>
      if attrs[i].path.IsIdent(name) then attrs[i].(path := PathOf(Ident(target, CallSite)))
      else attrs[i])
  }

  /** After renaming `name` to a different `target`, no attribute is named
      `name` any more. */
  lemma RenameRemovesName(attrs: seq<Attribute>, name: string, target: string)
    requires name != target
    ensures forall a :: a in RenameAttributes(attrs, name, target) ==> !a.path.IsIdent(name)
  {
    var r := RenameAttributes(attrs, name, target);
    forall a | a in r
      ensures !a.path.IsIdent(name)
    {
      var i :| 0 <= i < |r| && r[i] == a;
      if attrs[i].path.IsIdent(name) {
        assert a.path.IsIdent(target);
      }
    }
  }

  /** Literal conversions (`LitExt`) */

  /** The literals `to_str` accepts; on any other literal it panics. */
  predicate IsText(l: Lit) {
    l.Str? || l.ByteStr? || l.Char? || l.Byte?
  }

  /** `LitExt::to_str`: the literal's text; a character or a byte becomes a
      one-character text, a byte read as the character with that code. */
  function LitToStr(l: Lit): (s: string)
    requires IsText(l)
    ensures (l.Str? || l.ByteStr?) ==> s == l.text
    ensures l.Char? ==> |s| == 1 && s[0] == l.ch
    ensures l.Byte? ==> |s| == 1 && s[0] as int == l.b
  {
    match l
    case Str(text, _) => text
    case ByteStr(text, _) => text
    case Char(c, _) => [c]
    case Byte(b, _) => [b as char]
  }

  /** The literals `to_bool` accepts without panicking: a boolean, or a text
      literal reading `true` or `false`. */
  predicate IsBoolLike(l: Lit) {
    l.Bool? || (IsText(l) && (LitToStr(l) == "true" || LitToStr(l) == "false"))
  }

  /** `LitExt::to_bool` */
  function LitToBool(l: Lit): (b: bool)
    requires IsBoolLike(l)
    ensures l.Bool? ==> b == l.flag
    ensures !l.Bool? ==> (b <==> LitToStr(l) == "true")
    ensures !l.Bool? ==> (!b <==> LitToStr(l) == "false")
  {
    if l.Bool? then l.flag else LitToStr(l) == "true"
  }

  /** `LitExt::to_ident`: an identifier spelled like the literal's text,
      located at the literal. */
  function LitToIdent(l: Lit): (id: Ident)
    requires IsText(l)
    ensures id.text == LitToStr(l) && id.span == l.span
  {
    Ident(LitToStr(l), l.span)
  }

  /** Identifier text (`IdentExt2`) */

  /** `k` copies of the raw-identifier prefix `r#`. */
  function RawPrefixes(k: nat): (s: string)
    ensures |s| == 2 * k
  {
    if k == 0 then "" else "r#" + RawPrefixes(k - 1)
  }

  /** `trim_start_matches("r#")`: strips every leading repetition of `r#`. */
  function TrimRawPrefix(s: string): (r: string)
    ensures !StartsWith(r, "r#")
    ensures exists k :: s == RawPrefixes(k) + r
    decreases |s|
  {
    if StartsWith(s, "r#") then
      var r := TrimRawPrefix(s[2..]);
      ghost var k: nat :| s[2..] == RawPrefixes(k) + r;
      assert s == RawPrefixes(k + 1) + r;
      r
    else
      assert s == RawPrefixes(0) + s;
      s
  }

  /** Stripping is idempotent, and an extra prefix makes no difference. */
  lemma TrimRawPrefixStable(s: string)
    ensures TrimRawPrefix(TrimRawPrefix(s)) == TrimRawPrefix(s)
    ensures TrimRawPrefix("r#" + s) == TrimRawPrefix(s)
  {
    assert ("r#" + s)[2..] == s;
  }

  /** `IdentExt2::to_string_non_raw` */
  function ToStringNonRaw(id: Ident): (s: string)
    ensures !StartsWith(s, "r#")
    ensures exists k :: id.text == RawPrefixes(k) + s
  {
    TrimRawPrefix(id.text)
  }

  /** `IdentExt2::to_uppercase`: a fresh identifier spelled like the
      upper-cased non-raw name. */
  function ToUppercase(id: Ident): (r: Ident)
    ensures |r.text| == |ToStringNonRaw(id)|
    ensures forall i :: 0 <= i < |r.text| ==> r.text[i] == UpperChar(ToStringNonRaw(id)[i])
    ensures r.span == CallSite
  {
    Ident(ToUpperAscii(ToStringNonRaw(id)), CallSite)
  }

  /** `IdentExt2::with_suffix`: the upper-cased non-raw name, `_`, then the
      suffix. */
  function WithSuffix(id: Ident, suffix: string): (r: Ident)
    ensures StartsWith(r.text, ToUppercase(id).text + "_")
    ensures r.text[|ToUppercase(id).text| + 1..] == suffix
    ensures r.span == CallSite
  {
    Ident(ToUppercase(id).text + "_" + suffix, CallSite)
  }

  /** `AsOption<T>` is a plain optional; its default is `None`. */
  type AsOption<T> = Option<T>

  /** `AsOption::map` */
  function MapOption<T, U>(o: AsOption<T>, f: T -> U): (r: AsOption<U>)
    ensures r.Some? <==> o.Some?
    ensures r.Some? ==> r.value == f(o.value)
  {
    match o
    case Some(v) => Some(f(v))
    case None => None
  }

  /** `map` respects identity and composition: mapping the identity changes
      nothing, and mapping twice is mapping the composed function once. */
  lemma MapOptionLaws<T, U, V>(o: AsOption<T>, f: T -> U, g: U -> V)
    ensures MapOption(o, (x: T) => x) == o
    ensures MapOption(MapOption(o, f), g) == MapOption(o, (x: T) => g(f(x)))
  {
  }

  /** Description folding (`append_line`) */

  /** The line-continuation marker: a backslash followed by a dollar sign. */
  const Marker: string := "\\$"

  predicate MarkerAt(s: string, i: int) {
    0 <= i && i + 2 <= |s| && s[i..i + 2] == Marker
  }

  /** `line.rfind(Marker)`: the start of the last marker, if any (see
      `LastMarkerSpec`). */
  function LastMarker(s: string): (r: Option<nat>)
    ensures r.Some? ==> r.value + 2 <= |s|
  {
    if |s| < 2 then None
    else if s[|s| - 2..] == Marker then Some(|s| - 2)
    else LastMarker(s[..|s| - 1])
  }

  /** The position found holds the marker and no later position does; none
      is found only when the text holds no marker at all. */
  lemma {:induction false} LastMarkerSpec(s: string)
    ensures LastMarker(s).Some? ==> MarkerAt(s, LastMarker(s).value)
    ensures LastMarker(s).Some? ==> forall j :: LastMarker(s).value < j ==> !MarkerAt(s, j)
    ensures LastMarker(s).None? ==> forall j :: !MarkerAt(s, j)
  {
    if |s| >= 2 && s[|s| - 2..] != Marker {
      var s' := s[..|s| - 1];
      LastMarkerSpec(s');
      assert !MarkerAt(s, |s| - 2) by {
        assert s[|s| - 2..|s|] == s[|s| - 2..];
      }
      forall j | MarkerAt(s, j) && j + 2 < |s|
        ensures MarkerAt(s', j)
      {
        assert s'[j..j + 2] == s[j..j + 2];
      }
      match LastMarker(s')
      case None =>
      case Some(k) =>
        assert s'[k..k + 2] == s[k..k + 2];
    }
  }

  /** The line with at most one leading space removed. */
  function StripLeadingSpace(line: string): (r: string)
    ensures r == line || line == " " + r
    ensures r != line <==> StartsWith(line, " ")
  {
    if StartsWith(line, " ") then line[1..] else line
  }

  /** The text one line adds to the description (see `ContributionSpec`). */
  function Contribution(line: string): string
  {
    var l := StripLeadingSpace(line);
    match LastMarker(l)
    case Some(i) => TrimEnd(l[..i]) + " "
    case None => l + "\n"
  }

  /** After one leading space is removed, a line holding the marker adds
      the text before its last marker, right-trimmed, and one space (so the
      next line continues the paragraph); any other line adds itself and
      exactly one line break. */
  lemma ContributionSpec(line: string, l: string)
    requires l == StripLeadingSpace(line)
    ensures (forall j :: !MarkerAt(l, j)) ==> Contribution(line) == l + "\n"
    ensures forall i :: MarkerAt(l, i) && (forall j :: i < j ==> !MarkerAt(l, j)) ==>
              Contribution(line) == TrimEnd(l[..i]) + " "
  {
    LastMarkerSpec(l);
    match LastMarker(l)
    case None =>
    case Some(k) =>
      forall i | MarkerAt(l, i) && (forall j :: i < j ==> !MarkerAt(l, j))
        ensures Contribution(line) == TrimEnd(l[..i]) + " "
      {
        assert !(i < k) && !(k < i);
      }
  }

  /** `append_line`: folds one description line into the description,
      creating it if there was none; what was there stays as a prefix. */
  function AppendLine(desc: AsOption<string>, line: string): (r: AsOption<string>)
    ensures r.Some?
    ensures StartsWith(r.value, desc.GetOr(""))
    ensures r.value == desc.GetOr("") + Contribution(line)
  {
    var d := desc.GetOr("");
    var r := d + Contribution(line);
    assert r[..|d|] == d;
    Some(r)
  }

  /** Folds several lines in order, as repeated `description` attributes do. */
  function AppendLines(desc: AsOption<string>, lines: seq<string>): AsOption<string>
    decreases |lines|
  {
    if |lines| == 0 then desc else AppendLines(AppendLine(desc, lines[0]), lines[1..])
  }

  /** The contributions of the lines, concatenated in order. */
  function Contributions(lines: seq<string>): string
    decreases |lines|
  {
    if |lines| == 0 then "" else Contribution(lines[0]) + Contributions(lines[1..])
  }

  lemma ConcatAssociative<T>(a: seq<T>, b: seq<T>, c: seq<T>)
    ensures (a + b) + c == a + (b + c)
  {
  }

  lemma AppendLinesFirst(desc: AsOption<string>, lines: seq<string>)
    requires |lines| > 0
    ensures AppendLines(desc, lines)
         == AppendLines(Some(desc.GetOr("") + Contribution(lines[0])), lines[1..])
  {
  }

  lemma ContributionsFirst(lines: seq<string>)
    requires |lines| > 0
    ensures Contributions(lines) == Contribution(lines[0]) + Contributions(lines[1..])
  {
  }

  /** Folding lines appends their contributions, in order, to whatever
      description was already there. */
  lemma {:induction false} AppendLinesConcat(desc: AsOption<string>, lines: seq<string>)
    requires |lines| > 0 || desc.Some?
    ensures AppendLines(desc, lines) == Some(desc.GetOr("") + Contributions(lines))
    decreases |lines|
  {
    if |lines| == 0 {
      assert desc.GetOr("") + "" == desc.value;
    } else {
      var d, c, rest := desc.GetOr(""), Contribution(lines[0]), Contributions(lines[1..]);
      AppendLinesFirst(desc, lines);
      ContributionsFirst(lines);
      AppendLinesConcat(Some(d + c), lines[1..]);
      ConcatAssociative(d, c, rest);
    }
  }

  /** A line without a backslash holds no marker. */
  lemma NoBackslashNoMarker(s: string)
    requires '\\' !in s
    ensures LastMarker(s) == None
  {
    LastMarkerSpec(s);
    forall j | 0 <= j && j + 2 <= |s|
      ensures !MarkerAt(s, j)
    {
      assert s[j..j + 2][0] == s[j];
    }
  }

  lemma ContinuedLineExample()
    ensures Contribution(" first part \\$") == "first part "
  {
    var l := StripLeadingSpace(" first part \\$");
    assert l == "first part \\$";
    assert LastMarker(l) == Some(11);
    assert l[..11] == "first part ";
    assert TrimEnd("first part ") == "first part" by {
      assert "first part "[..10] == "first part";
    }
  }

  lemma PlainLineExample()
    ensures Contribution("second part") == "second part\n"
  {
    assert StripLeadingSpace("second part") == "second part" by {
      assert "second part"[0] == 's';
      assert "second part"[..1] != " ";
    }
    NoBackslashNoMarker("second part");
  }

  /** The two contributions of the example, joined. */
  lemma ContinuationText()
    ensures "first part " + "second part\n" == "first part second part\n"
  {
    var joined := "first part " + "second part\n";
    assert forall i :: 0 <= i < |joined| ==> joined[i] == "first part second part\n"[i];
  }

  /** A continued line and the line after it fold into one paragraph line. */
  lemma ContinuationExample()
    ensures AppendLines(None, [" first part \\$", "second part"]) == Some("first part second part\n")
  {
    var lines := [" first part \\$", "second part"];
    AppendLinesConcat(None, lines);
    ContributionsFirst(lines);
    assert lines[1..] == ["second part"];
    ContributionsFirst(lines[1..]);
    assert lines[1..][1..] == [];
    ContinuedLineExample();
    PlainLineExample();
    ContinuationText();
    assert "second part\n" + "" == "second part\n";
    assert "" + "first part second part\n" == "first part second part\n";
  }
}
